=== FILE: README.md ===
# Game of Life: grid, world and zoo

This project models the core of a C++ Conway's Game of Life in Dafny:

- **Grid** (grid.cpp) is a width × height grid of cells held in one row-major vector. Cell (x, y) sits at offset x + width·y. The grid supports get/set, alive and dead counts, resize, crop, merge, rotate and a bordered text rendering.
- **World** (world.cpp) owns a current grid and a scratch grid of the same size. `step` computes each cell's alive neighbours in the 3 × 3 block around it, wrapping at the edges when the world is toroidal. It writes the next generation into the scratch grid and copies that back. `advance` repeats `step`.
- **Zoo** (zoo.cpp) builds three seed patterns with `set` calls. It also defines two file formats:
  - an ascii format: a "width height" header, then one line per row with `#` for alive;
  - a binary format: the cells packed eight to a byte, least significant bit first, with the last byte zero-padded.

The value view of a grid is the datatype `Boards.Board`. Every geometric operation is a function on boards. The classes `Grids.Grid` and `Worlds.World` carry these operations out on their fields, with loops where the source loops, and each method is proved against the function that specifies it. The rules of life are functions in module `Life`. The file formats are functions in module `Codecs`, and the Zoo methods are proved against them.

Errors that the source reports by exception become `Result`/`Outcome` values: `OutOfBounds`, `InvalidDimension` and `FormatError`.

## Model

| member | source | states |
|---|---|---|
| Boards.Board.Offset | grid.cpp:455-457 | the row-major offset of an in-bounds (x, y) lies inside the cells, and offset % width and offset / width give back x and y |
| Boards.Board.Put | grid.cpp:520-523 | overwriting one cell keeps the width, the height and one cell per coordinate |
| Boards.Count | grid.cpp:197-239 | the number of cells in one state never exceeds the number of cells |
| Boards.CountsPartition | grid.cpp:197-239 | the alive count plus the dead count is the total number of cells |
| Boards.PutAt | grid.cpp:520-523 | after set(x, y, v) cell (x, y) reads v and every other cell reads what it did before |
| Boards.Board.Resized | grid.cpp:339-436 | the resized board has the new width and height and one cell per coordinate |
| Boards.ResizedAt | grid.cpp:359-436 | after a resize each cell of the kept region keeps its value and every new cell is dead |
| Boards.ResizeSameSize | grid.cpp:359-436 | resizing to the current dimensions changes nothing |
| Boards.ResizeRoundTrip | grid.cpp:359-436 | resizing to w × h and back restores the cells both sizes hold and leaves the rest dead |
| Boards.Board.Cropped | grid.cpp:635-648 | the crop of [x0, x1) × [y0, y1) is a valid (x1 − x0) × (y1 − y0) board |
| Boards.CroppedAt | grid.cpp:635-648 | cell (x, y) of the crop is cell (x0 + x, y0 + y) of the original |
| Boards.Overlay | grid.cpp:651-687 | a merge writes the other grid's cell, except that with alive_only it only ever turns cells alive |
| Boards.Board.Merged | grid.cpp:651-690 | merging a board that fits keeps the width, the height and one cell per coordinate |
| Boards.MergedAt | grid.cpp:651-690 | inside the placed region a merged cell is the overlay of the two cells, and outside it is unchanged |
| Boards.MergeAliveOnlyKeepsAlive | grid.cpp:680-684 | a merge with alive_only never kills a cell |
| Boards.CropThenMerge | grid.cpp:601-690 | merging a crop back where it was cut from fits and gives the original grid |
| Boards.Board.Quarter | grid.cpp:693-714 | a quarter turn swaps width and height and keeps one cell per coordinate |
| Boards.Board.Turns | grid.cpp:693-714 | k quarter turns keep the dimensions when k is even and swap them when k is odd |
| Boards.QuarterAt | grid.cpp:693-714 | one clockwise quarter turn moves (x, y) to (height-1-y, x) and swaps the dimensions |
| Boards.HalfTurnAt | grid.cpp:693-714 | two quarter turns move (x, y) to (width-1-x, height-1-y) |
| Boards.FourQuarterTurns | grid.cpp:693-714 | four quarter turns give back the original grid |
| Boards.Board.Rotated | grid.cpp:693-714 | rotate works for any integer and swaps the dimensions exactly when the rotation is odd |
| Boards.RotationPeriodic | grid.cpp:693-714 | rotate depends only on the rotation mod 4: rotate(4) and rotate(0) are copies, and rotate(-1) is rotate(3) |
| Boards.RenderSize | grid.cpp:717-751 | the rendering has height + 2 lines of width + 3 characters, and its first and last lines are the +---+ border |
| Boards.RenderRow | grid.cpp:717-751 | line y + 1 of the rendering is '\|', row y with '#' for alive and ' ' for dead, then '\|' |
| Grids.Grid.constructor | grid.cpp:84-90 | Grid(w, h) is a w × h grid of dead cells |
| Grids.Grid.Empty | grid.cpp:32-35 | Grid() is the empty 0 × 0 grid |
| Grids.Grid.Square | grid.cpp:60-66 | Grid(size) is a size × size grid of dead cells |
| Grids.DeadRun | grid.cpp:63-65 | the fill loop yields n dead cells |
| Grids.Grid.TotalCells | grid.cpp:170-172 | width × height equals the number of cells held |
| Grids.Grid.AliveCells | grid.cpp:197-205 | the loop counts exactly the alive cells, at most the total |
| Grids.Grid.DeadCells | grid.cpp:231-239 | the loop counts exactly the dead cells, the total minus the alive ones |
| Grids.Grid.CountState | grid.cpp:197-239 | the one-pass loop counts exactly the cells in the given state |
| Grids.Grid.Get | grid.cpp:460-491 | get succeeds exactly for coordinates inside the grid and returns the cell at offset x + width·y, otherwise OutOfBounds |
| Grids.Grid.Set | grid.cpp:494-564 | set succeeds exactly inside the grid and then changes that one cell, otherwise OutOfBounds and nothing changes |
| Grids.Grid.Resize | grid.cpp:339-436 | the rebuilt grid is the old one resized: kept region kept, new cells dead, width × height cells |
| Grids.Grid.ResizeSquare | grid.cpp:242-336 | resize(size) is resize(size, size), the documented behaviour; as written the square overload has the same branches as resize(w, h) (see Findings) |
| Grids.Grid.Crop | grid.cpp:601-648 | crop succeeds exactly for a window inside the grid of non-negative size, otherwise OutOfBounds; the new grid holds the window |
| Grids.Grid.Merge | grid.cpp:651-690 | merge succeeds exactly when the other grid fits at (x0, y0), otherwise OutOfBounds and nothing changes; on success the grid is the merged board |
| Grids.Grid.Rotate | grid.cpp:693-714 | rotate returns a new grid holding the rotated board and leaves the original unchanged |
| Grids.Grid.ToText | grid.cpp:717-751 | the text form has (width + 3) × (height + 2) characters |
| GridResize.NoBranchCases | grid.cpp:367-435 | resize as written takes none of its branches exactly when one dimension grows and the other stays the same |
| GridResize.ResizeAsWritten | grid.cpp:359-436 | resize as written gives the new width and height whenever it has a result, and has none only in the shrinking branch |
| GridResize.CopyRow | grid.cpp:372-382 | one pass of the inner copy loop, driven by the counters cx and cy and by either reset test, pushes exactly one cell per remaining column |
| GridResize.CopyRowKeeps | grid.cpp:373-382 | in the narrowing branch (reset on cx == width, width smaller than before) and in the other two (reset on x == width - 1, width not smaller), row y of the copy holds the old cell at each kept coordinate and a dead cell elsewhere, and the counters leave the row pointing at the start of row y + 1 |
| GridResize.CopyRowsKeep | grid.cpp:371-384 | the outer copy loop (CopyRows) from row y on yields exactly the cells of Resized from offset width · y on |
| GridResize.CopyRowsNoColumns | grid.cpp:371-372 | with a new width of 0 the copy loops push no cell |
| GridResize.CopyingBranchesResize | grid.cpp:367-423 | in the three copying branches, each with its own reset test, and when the size is unchanged, resize as written is Resized |
| GridResize.NoBranchLeavesCells | grid.cpp:359-436 | growing a non-empty grid in one dimension only keeps the old cell vector under the new dimensions, so the grid no longer holds one cell per coordinate |
| GridResize.WidenKeepsFourCells | grid.cpp:359-436 | Grid(2, 2).resize(3, 2) as written is a 3 × 2 grid holding four cells |
| GridResize.ShrinkRunsPastEnd | grid.cpp:424-431 | shrinking a 2 × 2 grid to 1 × 1 takes the shrinking branch, whose erase loop runs past the end of the vector |
| GridResize.ShrinkHasNoResult | grid.cpp:424-431 | so resize as written has no result for that shrink |
| Life.Wrap | world.cpp:439-450 | stepping one past either edge wraps to the other edge, matching i mod n |
| Life.NeighboursReference | world.cpp:423-468 | the row-by-row count is the sum of the eight surrounding cells, each wrapped on a torus or counted dead off the grid |
| Life.ContributionIsLiveAt | world.cpp:429-463 | what the branches add for a position other than the centre is that position's cell, wrapped on a torus and dead off the grid otherwise |
| Life.NeighboursAtMostEight | world.cpp:423-468 | a cell has at most eight alive neighbours |
| Life.OneCellTorusCountsItself | world.cpp:398-399 | on a 1 × 1 torus the count is 8 when the cell is alive and 0 when it is dead: the cell is counted as its own neighbour eight times |
| Life.WrapMissesCentre | world.cpp:439-450 | on a cycle of at least two cells a step of one to either side never wraps back to the start |
| Life.LiveAtAwayFromCentre | world.cpp:429-463 | overwriting the centre leaves each of the eight neighbour readings unchanged, clipped or on a torus at least 2 × 2 |
| Life.CentreIsNotANeighbour | world.cpp:398-399 | a cell is not its own neighbour: its count does not depend on its own state, clipped or on a torus at least two cells wide and two cells high |
| Life.NextCell | world.cpp:470-507 | a cell is alive next exactly when it is alive with 2 or 3 neighbours or dead with exactly 3 |
| Life.NextGeneration | world.cpp:490-507 | the next generation has the same width and height and one cell per coordinate |
| Life.NextGenerationAt | world.cpp:490-507 | every cell of the next generation is the rule applied to the old cell and its old neighbour count |
| Life.StepCell | world.cpp:497-505 | the branches of step give the rule's outcome, except that a dead cell with exactly two neighbours is not written and keeps the stale scratch value |
| Life.GenerationsCompose | world.cpp:526-531 | m generations followed by n generations are m + n generations |
| Life.Generations | world.cpp:513-531 | any number of generations keeps the width and height |
| Life.LonelyCellDies | world.cpp:481-484 | a cell with no alive neighbour is dead in the next generation |
| Life.StepIntoAt | world.cpp:494-507 | step writes the rule's outcome into the scratch cell, except that a dead cell with two neighbours keeps the scratch value |
| Life.StepInto | world.cpp:494-507 | writing every scratch cell gives a grid of the current grid's size |
| Life.BlankIsScratch | world.cpp:96-146 | a dead scratch grid of the same size qualifies as scratch for any current grid |
| Life.StepIntoIsNextGeneration | world.cpp:490-510 | when the scratch grid is dead wherever the current one is, step's writes give exactly the next generation |
| Life.StepIntoNeedsScratch | world.cpp:494-507 | without that condition a stale alive scratch cell survives where the rule says dead |
| Life.SwapLeavesStaleCell | world.cpp:475-509 | with the documented swap the scratch grid would be the grid of two generations back: Row turns into Bar, Row is no scratch grid for Bar, and stepping Bar into Row leaves cell (0, 1) alive where the rule kills it |
| Worlds.World.Empty | world.cpp:40-43 | World() holds two distinct empty grids |
| Worlds.World.Square | world.cpp:64-78 | World(size) holds two size × size grids of dead cells |
| Worlds.World.constructor | world.cpp:96-110 | World(w, h) holds two w × h grids of dead cells |
| Worlds.World.FromGrid | world.cpp:132-146 | World(initial) holds a cell-by-cell copy of initial and a dead scratch grid of its size |
| Worlds.World.TotalCells | world.cpp:228-230 | width × height equals the number of cells of the current grid |
| Worlds.World.AliveCells | world.cpp:256-268 | the row-by-row loop counts exactly the alive cells of the current grid |
| Worlds.World.DeadCells | world.cpp:294-306 | the row-by-row loop counts exactly the dead cells, the total minus the alive ones |
| Worlds.World.CountState | world.cpp:256-306 | the row-by-row loop counts exactly the cells of the current grid in the given state |
| Worlds.World.State | world.cpp:333-335 | get_state returns a grid equal to the current state |
| Worlds.World.Resize | world.cpp:385-389 | the current grid is resized and the scratch grid gets the new size as well, so the world stays valid |
| Worlds.World.ResizeSquare | world.cpp:357-361 | resize(size) is resize(size, size) |
| Worlds.World.ResizeAsWritten | world.cpp:385-389 | resizing only the current grid leaves the scratch grid at the old size, so any change of size breaks the world's invariant |
| Worlds.World.CountNeighbours | world.cpp:423-468 | the double loop returns the neighbour count of the current grid |
| Worlds.World.NeighbourAt | world.cpp:430-462 | the branches for one position (i, j) add exactly its contribution: nothing for the centre, the wrapped cell on a torus, nothing off the grid otherwise |
| Worlds.World.Step | world.cpp:490-510 | after step the current grid is the next generation of the old one, the scratch grid equals it, and the invariant holds |
| Worlds.World.WriteNext | world.cpp:494-507 | the nested loops leave the scratch grid holding step's writes over its old contents, cell by cell |
| Worlds.World.WriteRow | world.cpp:495-506 | one pass of the inner loop writes row y and keeps every earlier offset written and every later one untouched |
| Worlds.World.UpdateCell | world.cpp:496-505 | the loop body changes at most scratch cell (x, y), to the rule's outcome from the current grid |
| Worlds.WrittenStep | world.cpp:494-507 | writing cell (x, y) moves the boundary between written and untouched scratch cells one offset on |
| Worlds.World.Advance | world.cpp:526-531 | advance(steps) gives max(steps, 0) generations of the old state |
| Zoo.Glider | zoo.cpp:49-57 | a 3 × 3 grid alive exactly at the five glider cells |
| Zoo.RPentomino | zoo.cpp:79-87 | a 3 × 3 grid alive exactly at the five R-pentomino cells |
| Zoo.LightWeightSpaceship | zoo.cpp:111-123 | a 5 × 4 grid alive exactly at the nine spaceship cells |
| Codecs.ChunkBits | zoo.cpp:377-390 | bit i of a packed chunk is set exactly when cell i of the chunk is alive |
| Codecs.Pack | zoo.cpp:347-399 | n cells pack into ceil(n / 8) bytes |
| Codecs.PackBits | zoo.cpp:369-392 | bit k of the packed stream is set exactly when cell k exists and is alive, so the padding bits are zero |
| Codecs.PackAppend | zoo.cpp:369-392 | packing works eight cells at a time: packing s + t is packing s then t when s holds whole bytes |
| Codecs.Unpack | zoo.cpp:286-315 | reading n cells succeeds exactly when the data holds at least n bits, and then yields n cells |
| Codecs.UnpackPack | zoo.cpp:274-399 | unpacking the packed cells gives back the cells |
| Zoo.SaveBinary | zoo.cpp:347-399 | save_binary's chunking loop writes exactly the packed cells, with the grid's width and height |
| Zoo.PushCell | zoo.cpp:371-390 | one cell of the chunking loop keeps the loop state: the open chunk holds the cells since the last byte and the bytes hold everything before it |
| Zoo.LoadBinary | zoo.cpp:274-316 | load_binary succeeds exactly when the data holds width × height bits, otherwise FormatError; the grid read is the unpacked data |
| Zoo.BinaryRoundTrip | zoo.cpp:274-399 | the bytes save_binary writes, loaded by load_binary with the saved width and height, give a grid equal to the saved one |
| Codecs.ParseChar | zoo.cpp:182-189 | ' ' reads as dead and '#' as alive; any other character is a FormatError |
| Codecs.ParseCells | zoo.cpp:178-191 | reading n cells succeeds exactly when there are at least n characters and each of the first n is ' ' or '#'; cell k is then the one character k denotes, and any failure is a FormatError |
| Codecs.RemoveNewlines | zoo.cpp:166-176 | dropping the newlines never makes the text longer |
| Codecs.LoadText | zoo.cpp:150-194 | the result is InvalidDimension exactly when a dimension is below 1; otherwise loading succeeds exactly when the body without newlines parses as width × height cells, any failure is a FormatError, and a success has the header's dimensions and cell k is character k of the body without newlines |
| Codecs.RowsLayout | zoo.cpp:241-246 | the saved body is one line of width characters per row, each ending in a newline |
| Codecs.RowsChars | zoo.cpp:225-249 | with the newlines removed, the saved body is the cells' characters in row-major order |
| Codecs.NatTextRoundTrip | zoo.cpp:233-236 | the numbers save_ascii writes in the header are decimal digits only, and as decimal numerals they denote exactly the width and the height |
| Codecs.AsciiRoundTrip | zoo.cpp:150-249 | a saved grid's rows, with ' ' for dead, load back as the same grid |
| Codecs.AsciiFileRoundTrip | zoo.cpp:150-249 | the text save_ascii writes after the two header numbers, its first newline included, loads back with the saved width and height as the same grid |
| Codecs.LoadTextSeesCharacters | zoo.cpp:166-191 | two bodies with the same characters once newlines are removed load to the same result |
| Codecs.AsciiRowIsRowText | zoo.cpp:242-244 | a saved row uses the same characters as the rendering's row |
| Codecs.AsWrittenDeadCellRejected | zoo.cpp:243 | a grid saved as written, with '0' for dead, is rejected by load_ascii whenever it has a dead cell |
| Zoo.SaveAscii | zoo.cpp:225-249 | save_ascii writes the header and then every row, with ' ' for dead |
| Zoo.LineChars | zoo.cpp:166-176 | reading the body line by line yields its characters without the newlines |
| Zoo.LoadAscii | zoo.cpp:150-194 | load_ascii succeeds exactly when the body parses, fails with the parser's error otherwise, and returns the parsed grid |

## Left out

- File I/O: the paths, opening and closing streams, and the `is_open` failures. The loaders take the file contents as parameters, and the savers return them.
- Header tokenising with `>>` and the native-endian 4-byte integer header of the binary format. `Zoo.LoadAscii` and `Zoo.LoadBinary` receive the width and height already read.
- Zoo.LoadBinary: the failed read at end of file is not modelled. That read pushes the last byte's bits a second time, so the source accepts up to eight cells more than the data holds. The model reports FormatError as soon as the data holds fewer than width × height bits.
- Codecs.LoadText, Zoo.LoadAscii: the doc comment of load_ascii promises an error when newline characters are not found where expected (zoo.cpp:147), but the code never checks where they fall: it joins every line into one character vector (zoo.cpp:166-176). The model follows the code. Line breaks may fall anywhere, so `LoadText(2, 2, "####")` and `LoadText(2, 2, "#\n###")` both succeed, and characters after the first width × height are ignored. The `std::out_of_range` that `cVector.at` throws on a body that is too short becomes FormatError.
- The `std::bitset` and reverse mechanics of the binary codec. They are modelled by their effect, which is least significant bit first.
- Integer overflow of `int` widths and products. Dimensions are unbounded naturals, so negative sizes passed to the constructors and to resize are not modelled.
- Grids.Grid.Get, Grids.Grid.Set and Grids.Grid.Crop: these follow the documented OutOfBounds error. The code indexes the vector without a check, so an out-of-range access is undefined behaviour there.
- Grids.Grid.Merge, Grids.Grid.Rotate and Grids.Grid.ToText: merge has an empty body (grid.cpp:688-690), and rotate and operator<< have no definition, only doc comments (grid.cpp:693-751). All three are modelled from their doc comments. The rotation is clockwise, and every rendered line ends in a newline.
- Grids.Grid.Resize: this models the documented behaviour. The as-written branches are kept apart in module GridResize (see Findings); there the three copying branches are modelled as their cx/cy counter loops with their two reset tests.
- Life.NeighboursReference, Worlds.World.CountNeighbours: the promise that a cell is not its own neighbour (world.cpp:399) holds only on a torus at least two cells wide and two cells high (Life.CentreIsNotANeighbour). On a torus one cell wide or one cell high a wrapped offset lands on the cell itself and is counted (Life.OneCellTorusCountsItself); on a torus two cells wide the other column is counted twice. The model keeps this behaviour of the code.
- The redundant loops in the World constructors that set every cell dead again. Grid's constructors already yield dead cells.
- Worlds.World.Step: the comments of step and of the class (world.cpp:9, world.cpp:475-477, world.h:21) promise that the two grids are swapped in O(1) with no copy, but the code copies the scratch grid into the current one (world.cpp:509). The model copies, as the code does. A swap would be wrong: it would step into the grid of two generations back, which Life.SwapLeavesStaleCell shows leaves a cell alive that the rule kills.
- Worlds.World.State: returns a copy. The reference-returning `get_state` and aliasing through it are not modelled.
- The `width` and `height` getters of Grid and World, which are plain field reads, and `ostream` chaining.

## Findings

| source | as written | input that shows it | evidently intended | confidence | as-written member | corrected member |
|---|---|---|---|---|---|---|
| grid.cpp:367-434 with grid.cpp:259-336 | no branch of resize (nor of its square overload) handles a grid that grows in one dimension and keeps the other, so only width and height change | Grid(2, 2).resize(3, 2) leaves 4 cells for a 3 × 2 grid | the grid is rebuilt with dead new cells | not executed | GridResize.NoBranchLeavesCells | Grids.Grid.Resize |
| grid.cpp:424-431 with grid.cpp:324-332 | the shrinking branch (also in the square overload) erases at x + new_width·y from a vector that shrinks as it goes | Grid(2, 2).resize(1, 1) erases at offsets 1, 1, then 2 of a two-cell vector | keep exactly the cells of the kept region | not executed | GridResize.ShrinkRunsPastEnd | Grids.Grid.Resize |
| world.cpp:385-389 with world.cpp:357-361 | World::resize, and its square overload, resizes only the current grid, so the next grid keeps the old size | World(2, 2).resize(3, 3) then step writes cell (2, 2) of a 2 × 2 next grid | both grids take the new size | not executed | Worlds.World.ResizeAsWritten | Worlds.World.Resize |
| zoo.cpp:243 with grid.h:22 | save_ascii writes each cell's char value, which is '0' for a dead cell, while load_ascii accepts only ' ' and '#' | saving Grid(1, 1) and loading the file back gives a format error | dead cells are saved as ' ' | not executed | Codecs.AsWrittenDeadCellRejected | Zoo.SaveAscii |

=== FILE: boards.dfy ===
/**
 * The value view of a grid: its width, its height and its cells in row-major
 * order, with cell (x, y) stored at offset x + width * y. The geometric
 * operations of grid.cpp (resize, crop, merge, rotate, rendering) are defined
 * here as functions on these values; the Grid class in grid.dfy carries them
 * out on its fields and is proved against them.
 */
module Boards {

  /** A cell holds one of exactly two states (grid.h:21-24). */
  datatype Cell = Dead | Alive

  // ---------------------------------------------------------------------------
  // Row-major index arithmetic
  // ---------------------------------------------------------------------------

  lemma MulMono(a: nat, b: nat, c: nat)
    requires b <= c
    ensures a * b <= a * c
  {
  }

  /** Row y of a w-wide grid of h > y rows ends at offset w * y + w, inside the grid. */
  lemma RowEnd(w: nat, y: nat, h: nat)
    requires y < h
    ensures 0 <= w * y && w * (y + 1) == w * y + w && w * y + w <= w * h
  {
    MulMono(w, y + 1, h);
  }

  lemma MulSucc(a: nat, k: nat)
    ensures a * (k + 1) == a * k + a
  {
  }

  /** An in-bounds coordinate has an offset inside the cell sequence. */
  lemma OffsetBound(w: nat, h: nat, x: nat, y: nat)
    requires x < w && y < h
    ensures x + w * y < w * h
  {
    MulMono(w, y + 1, h);
  }

  /** The offset of (x, y) determines x and y again. */
  lemma OffsetSplit(w: nat, x: nat, y: nat)
    requires x < w
    ensures (x + w * y) / w == y && (x + w * y) % w == x
  {
    var i := x + w * y;
    var q, r := i / w, i % w;
    assert i == w * q + r;
    assert w * (q - y) == x - r;
    if q > y {
      MulMono(w, 1, q - y);
    } else if q < y {
      MulMono(w, 1, y - q);
    }
  }

  /** The coordinate (w - 1, h - 1) is the one whose offset is the last. */
  lemma LastOffset(w: nat, h: nat, x: nat, y: nat)
    requires x < w && y < h
    ensures (x == w - 1 && y == h - 1) <==> x + w * y + 1 == w * h
  {
    assert w * (y + 1) == w * y + w;
    if y < h - 1 {
      MulMono(w, y + 1, h - 1);
      assert w * (h - 1) == w * h - w;
    } else {
      assert w * h == w * y + w;
    }
  }

  /** Every offset below w * h is the offset of an in-bounds coordinate. */
  lemma SplitBound(w: nat, h: nat, i: nat)
    requires i < w * h
    ensures w > 0 && i % w < w && i / w < h && i == i % w + w * (i / w)
  {
  }

  // ---------------------------------------------------------------------------
  // Boards
  // ---------------------------------------------------------------------------

  /** The contents of a grid: dimensions and row-major cells (grid.h:31-33). */
  datatype Board = Board(width: nat, height: nat, cells: seq<Cell>) {

    /** The size invariant of every grid: one cell per coordinate. */
    predicate Valid() {
      |cells| == width * height
    }

    predicate InBounds(x: int, y: int) {
      0 <= x < width && 0 <= y < height
    }

    /** The row-major offset of an in-bounds coordinate (grid.cpp:455-457). */
    function Offset(x: nat, y: nat): (i: nat)
      requires Valid() && x < width && y < height
      ensures i < |cells|
      ensures i % width == x && i / width == y
    {
      OffsetBound(width, height, x, y);
      OffsetSplit(width, x, y);
      x + width * y
    }

    /** The cell at (x, y). */
    function At(x: nat, y: nat): Cell
      requires Valid() && x < width && y < height
    {
      cells[Offset(x, y)]
    }

    /** The board with cell (x, y) overwritten by v. */
    function Put(x: nat, y: nat, v: Cell): (b: Board)
      requires Valid() && x < width && y < height
      ensures b.Valid() && b.width == width && b.height == height
    {
      Board(width, height, cells[Offset(x, y) := v])
    }

    /**
     * The board resized to w × h: the kept region [0, min) × [0, min) keeps
     * its cells and every other cell is dead (grid.cpp:242-246, 339-343).
     */
    function Resized(w: nat, h: nat): (b: Board)
      requires Valid()
      ensures b.Valid() && b.width == w && b.height == h
    {
      Tabulate(w, h, (x: nat, y: nat) => if x < width && y < height then At(x, y) else Dead)
    }

    /** The window [x0, x1) × [y0, y1) of this board (grid.cpp:601-605). */
    function Cropped(x0: nat, y0: nat, x1: nat, y1: nat): (b: Board)
      requires Valid() && x0 <= x1 <= width && y0 <= y1 <= height
      ensures b.Valid() && b.width == x1 - x0 && b.height == y1 - y0
    {
      Tabulate(x1 - x0, y1 - y0,
        (x: nat, y: nat) => if x0 + x < width && y0 + y < height then At(x0 + x, y0 + y) else Dead)
    }

    /** Whether a board o placed with its top-left corner at (x0, y0) lies inside this one. */
    predicate Fits(o: Board, x0: int, y0: int) {
      0 <= x0 && 0 <= y0 && x0 + o.width <= width && y0 + o.height <= height
    }

    /** Whether (x, y) is covered by a board o placed at (x0, y0). */
    predicate Covers(o: Board, x0: int, y0: int, x: int, y: int) {
      x0 <= x < x0 + o.width && y0 <= y < y0 + o.height
    }

    /** This board with o laid over it at (x0, y0) (grid.cpp:651-686). */
    function Merged(o: Board, x0: nat, y0: nat, aliveOnly: bool): (b: Board)
      requires Valid() && o.Valid() && Fits(o, x0, y0)
      ensures b.Valid() && b.width == width && b.height == height
    {
      Tabulate(width, height,
        (x: nat, y: nat) =>
          if !(x < width && y < height) then Dead
          else if Covers(o, x0, y0, x, y) then Overlay(At(x, y), o.At(x - x0, y - y0), aliveOnly)
          else At(x, y))
    }

    /** One clockwise quarter turn: a w × h board becomes h × w with dst(h-1-y, x) = src(x, y). */
    function Quarter(): (b: Board)
      requires Valid()
      ensures b.Valid() && b.width == height && b.height == width
    {
      Tabulate(height, width,
        (x: nat, y: nat) => if y < width && x < height then At(y, height - 1 - x) else Dead)
    }

    /** k clockwise quarter turns, applied one after another. */
    function Turns(k: nat): (b: Board)
      requires Valid()
      ensures b.Valid()
      ensures k % 2 == 0 ==> b.width == width && b.height == height
      ensures k % 2 == 1 ==> b.width == height && b.height == width
      decreases k
    {
      if k == 0 then this else Quarter().Turns(k - 1)
    }

    /**
     * The copy rotated by r quarter turns clockwise, for any integer r: only
     * r mod 4 turns are made, so the work does not grow with |r| (grid.cpp:693-714).
     */
    function Rotated(r: int): (b: Board)
      requires Valid()
      ensures b.Valid()
      ensures r % 2 == 0 ==> b.width == width && b.height == height
      ensures r % 2 != 0 ==> b.width == height && b.height == width
    {
      Turns(r % 4)
    }
  }

  /** The w × h board whose cell (x, y) is f(x, y). */
  function Tabulate(w: nat, h: nat, f: (nat, nat) -> Cell): (b: Board)
    ensures b.Valid() && b.width == w && b.height == h
  {
    Board(w, h, seq(w * h, i requires 0 <= i < w * h => if w == 0 then Dead else f(i % w, i / w)))
  }

  /** A w × h board of dead cells (grid.cpp:37-90). */
  function Blank(w: nat, h: nat): (b: Board)
    ensures b.Valid() && b.width == w && b.height == h
    ensures forall x: nat, y: nat :: x < w && y < h ==> b.At(x, y) == Dead
  {
    Board(w, h, seq(w * h, _ => Dead))
  }

  /** The value a merge writes over `mine` from `theirs` (grid.cpp:657-659, 681-683). */
  function Overlay(mine: Cell, theirs: Cell, aliveOnly: bool): (c: Cell)
    ensures !aliveOnly ==> c == theirs
    ensures aliveOnly ==> (c == Alive <==> mine == Alive || theirs == Alive)
  {
    if aliveOnly then (if theirs == Alive then Alive else mine) else theirs
  }

  /** How many cells of s are in state c. */
  function Count(s: seq<Cell>, c: Cell): (n: nat)
    ensures n <= |s|
  {
    if s == [] then 0 else Count(s[..|s| - 1], c) + (if s[|s| - 1] == c then 1 else 0)
  }

  /** Every cell is alive or dead, so the two counts add up to the total (grid.cpp:147-239). */
  lemma {:induction false} CountsPartition(s: seq<Cell>)
    ensures Count(s, Alive) + Count(s, Dead) == |s|
  {
    if s != [] {
      CountsPartition(s[..|s| - 1]);
    }
  }

  /** Extending a prefix by one cell adds that cell to the count. */
  lemma CountPrefix(s: seq<Cell>, k: nat, c: Cell)
    requires k < |s|
    ensures Count(s[..k + 1], c) == Count(s[..k], c) + (if s[k] == c then 1 else 0)
  {
    assert s[..k + 1][..k] == s[..k];
  }

  // ---------------------------------------------------------------------------
  // Cell-level facts
  // ---------------------------------------------------------------------------

  lemma TabulateAt(w: nat, h: nat, f: (nat, nat) -> Cell, x: nat, y: nat)
    requires x < w && y < h
    ensures Tabulate(w, h, f).At(x, y) == f(x, y)
  {
    var b := Tabulate(w, h, f);
    var i := b.Offset(x, y);
    assert b.cells[i] == f(i % w, i / w);
  }

  /** Two valid boards of the same dimensions that agree at every coordinate are equal. */
  lemma Extensionality(a: Board, b: Board)
    requires a.Valid() && b.Valid() && a.width == b.width && a.height == b.height
    requires forall x: nat, y: nat :: x < a.width && y < a.height ==> a.At(x, y) == b.At(x, y)
    ensures a == b
  {
    forall i | 0 <= i < |a.cells|
      ensures a.cells[i] == b.cells[i]
    {
      SplitBound(a.width, a.height, i);
      var x, y := i % a.width, i / a.width;
      assert a.Offset(x, y) == i;
      assert a.At(x, y) == b.At(x, y);
    }
  }

  /**
   * Set then get: after overwriting (x, y) with v, that cell reads v and
   * every other cell reads what it did before (grid.cpp:494-523).
   */
  lemma PutAt(b: Board, x: nat, y: nat, v: Cell, x': nat, y': nat)
    requires b.Valid() && x < b.width && y < b.height && x' < b.width && y' < b.height
    ensures b.Put(x, y, v).At(x', y') == if x' == x && y' == y then v else b.At(x', y')
  {
    var i, j := b.Offset(x, y), b.Offset(x', y');
    assert i == j ==> x' == x && y' == y;
  }

  /** Resize keeps the kept region and pads with dead cells (grid.cpp:242-246, 339-343). */
  lemma ResizedAt(b: Board, w: nat, h: nat, x: nat, y: nat)
    requires b.Valid() && x < w && y < h
    ensures b.Resized(w, h).At(x, y) == if x < b.width && y < b.height then b.At(x, y) else Dead
  {
    TabulateAt(w, h, (x: nat, y: nat) => if x < b.width && y < b.height then b.At(x, y) else Dead, x, y);
  }

  /** Resizing to the current dimensions changes nothing. */
  lemma ResizeSameSize(b: Board)
    requires b.Valid()
    ensures b.Resized(b.width, b.height) == b
  {
    forall x: nat, y: nat | x < b.width && y < b.height
      ensures b.Resized(b.width, b.height).At(x, y) == b.At(x, y)
    {
      ResizedAt(b, b.width, b.height, x, y);
    }
    Extensionality(b.Resized(b.width, b.height), b);
  }

  /**
   * Resizing to w × h and back restores every cell that both sizes hold and
   * leaves the rest dead.
   */
  lemma ResizeRoundTrip(b: Board, w: nat, h: nat, x: nat, y: nat)
    requires b.Valid() && x < b.width && y < b.height
    ensures b.Resized(w, h).Resized(b.width, b.height).At(x, y) == if x < w && y < h then b.At(x, y) else Dead
  {
    ResizedAt(b.Resized(w, h), b.width, b.height, x, y);
    if x < w && y < h {
      ResizedAt(b, w, h, x, y);
    }
  }

  /** The cropped board's (x, y) is the source's (x0 + x, y0 + y) (grid.cpp:601-605, 628-629). */
  lemma CroppedAt(b: Board, x0: nat, y0: nat, x1: nat, y1: nat, x: nat, y: nat)
    requires b.Valid() && x0 <= x1 <= b.width && y0 <= y1 <= b.height
    requires x < x1 - x0 && y < y1 - y0
    ensures b.Cropped(x0, y0, x1, y1).At(x, y) == b.At(x0 + x, y0 + y)
  {
    TabulateAt(x1 - x0, y1 - y0,
      (x: nat, y: nat) => if x0 + x < b.width && y0 + y < b.height then b.At(x0 + x, y0 + y) else Dead, x, y);
  }

  /** The same cell of a cropped board, read by its offset. */
  lemma CroppedCell(b: Board, x0: nat, y0: nat, x1: nat, y1: nat, x: nat, y: nat)
    requires b.Valid() && x0 <= x1 <= b.width && y0 <= y1 <= b.height
    requires x < x1 - x0 && y < y1 - y0
    ensures (x1 - x0) * y + x < |b.Cropped(x0, y0, x1, y1).cells|
    ensures b.Cropped(x0, y0, x1, y1).cells[(x1 - x0) * y + x] == b.At(x0 + x, y0 + y)
  {
    CroppedAt(b, x0, y0, x1, y1, x, y);
  }

  /**
   * Inside the placed region a merged cell is the overlay of the two cells;
   * outside it the cell is unchanged (grid.cpp:651-686).
   */
  lemma MergedAt(b: Board, o: Board, x0: nat, y0: nat, aliveOnly: bool, x: nat, y: nat)
    requires b.Valid() && o.Valid() && b.Fits(o, x0, y0) && x < b.width && y < b.height
    ensures b.Merged(o, x0, y0, aliveOnly).At(x, y) ==
              if b.Covers(o, x0, y0, x, y) then Overlay(b.At(x, y), o.At(x - x0, y - y0), aliveOnly)
              else b.At(x, y)
  {
    TabulateAt(b.width, b.height,
      (x: nat, y: nat) =>
        if !(x < b.width && y < b.height) then Dead
        else if b.Covers(o, x0, y0, x, y) then Overlay(b.At(x, y), o.At(x - x0, y - y0), aliveOnly)
        else b.At(x, y), x, y);
  }

  /** A merge that writes only alive cells never kills a cell (grid.cpp:657-659). */
  lemma MergeAliveOnlyKeepsAlive(b: Board, o: Board, x0: nat, y0: nat, x: nat, y: nat)
    requires b.Valid() && o.Valid() && b.Fits(o, x0, y0) && x < b.width && y < b.height
    requires b.At(x, y) == Alive
    ensures b.Merged(o, x0, y0, true).At(x, y) == Alive
  {
    MergedAt(b, o, x0, y0, true, x, y);
  }

  /** Merging a crop back at the place it was cut from gives the original board. */
  lemma CropThenMerge(b: Board, x0: nat, y0: nat, x1: nat, y1: nat, aliveOnly: bool)
    requires b.Valid() && x0 <= x1 <= b.width && y0 <= y1 <= b.height
    ensures b.Fits(b.Cropped(x0, y0, x1, y1), x0, y0)
    ensures b.Merged(b.Cropped(x0, y0, x1, y1), x0, y0, aliveOnly) == b
  {
    var c := b.Cropped(x0, y0, x1, y1);
    var m := b.Merged(c, x0, y0, aliveOnly);
    forall x: nat, y: nat | x < b.width && y < b.height
      ensures m.At(x, y) == b.At(x, y)
    {
      MergedAt(b, c, x0, y0, aliveOnly, x, y);
      if b.Covers(c, x0, y0, x, y) {
        CroppedAt(b, x0, y0, x1, y1, x - x0, y - y0);
      }
    }
    Extensionality(m, b);
  }

  /** A quarter turn moves (x, y) to (h-1-y, x). */
  lemma QuarterAt(b: Board, x: nat, y: nat)
    requires b.Valid() && x < b.width && y < b.height
    ensures b.Quarter().At(b.height - 1 - y, x) == b.At(x, y)
  {
    TabulateAt(b.height, b.width,
      (x: nat, y: nat) => if y < b.width && x < b.height then b.At(y, b.height - 1 - x) else Dead,
      b.height - 1 - y, x);
  }

  /** A half turn moves (x, y) to (w-1-x, h-1-y). */
  lemma HalfTurnAt(b: Board, x: nat, y: nat)
    requires b.Valid() && x < b.width && y < b.height
    ensures b.Quarter().Quarter().At(b.width - 1 - x, b.height - 1 - y) == b.At(x, y)
  {
    QuarterAt(b, x, y);
    QuarterAt(b.Quarter(), b.height - 1 - y, x);
  }

  /** Four quarter turns give back the original board. */
  lemma FourQuarterTurns(b: Board)
    requires b.Valid()
    ensures b.Quarter().Quarter().Quarter().Quarter() == b
  {
    var h := b.Quarter().Quarter();
    var f := h.Quarter().Quarter();
    forall x: nat, y: nat | x < b.width && y < b.height
      ensures f.At(x, y) == b.At(x, y)
    {
      HalfTurnAt(b, x, y);
      HalfTurnAt(h, b.width - 1 - x, b.height - 1 - y);
    }
    Extensionality(f, b);
  }

  /**
   * rotate(r) depends only on r mod 4: a full turn is a copy of the
   * original, and rotate(-1) is rotate(3) (grid.cpp:696-697).
   */
  lemma RotationPeriodic(b: Board, r: int)
    requires b.Valid()
    ensures b.Rotated(r + 4) == b.Rotated(r)
    ensures b.Rotated(4) == b && b.Rotated(0) == b
    ensures b.Rotated(-1) == b.Rotated(3)
  {
    FourQuarterTurns(b);
    assert b.Turns(4) == b.Quarter().Quarter().Quarter().Quarter().Turns(0);
  }

  // ---------------------------------------------------------------------------
  // Text rendering (grid.cpp:717-751)
  // ---------------------------------------------------------------------------

  /** How a cell is drawn: '#' when alive, a space when dead (grid.cpp:722). */
  function Glyph(c: Cell): char {
    if c == Alive then '#' else ' '
  }

  /** The glyphs of row y, left to right. */
  function RowText(b: Board, y: nat): (s: string)
    requires b.Valid() && y < b.height
    ensures |s| == b.width
  {
    seq(b.width, x requires 0 <= x < b.width => Glyph(b.At(x, y)))
  }

  /** The horizontal border: '+', one dash per column, '+'. */
  function Border(w: nat): (s: string)
    ensures |s| == w + 3
  {
    "+" + seq(w, _ => '-') + "+\n"
  }

  /** The first k rows, each bracketed by '|'. */
  function FramedRows(b: Board, k: nat): string
    requires b.Valid() && k <= b.height
  {
    if k == 0 then "" else FramedRows(b, k - 1) + "|" + RowText(b, k - 1) + "|\n"
  }

  /** The bordered text form of a board; every line ends in a newline. */
  function Render(b: Board): string
    requires b.Valid()
  {
    Border(b.width) + FramedRows(b, b.height) + Border(b.width)
  }

  /** k framed rows take (width + 3) * k characters. */
  lemma {:induction false} FramedRowsLength(b: Board, k: nat)
    requires b.Valid() && k <= b.height
    ensures |FramedRows(b, k)| == (b.width + 3) * k
  {
    if k > 0 {
      FramedRowsLength(b, k - 1);
      MulSucc(b.width + 3, k - 1);
    }
  }

  /** The first j framed rows are a prefix of the first k. */
  lemma {:induction false} FramedRowsPrefix(b: Board, j: nat, k: nat)
    requires b.Valid() && j <= k <= b.height
    ensures |FramedRows(b, j)| <= |FramedRows(b, k)|
    ensures FramedRows(b, k)[..|FramedRows(b, j)|] == FramedRows(b, j)
  {
    if j < k {
      FramedRowsPrefix(b, j, k - 1);
    }
  }

  /** Framed row y sits at offset (width + 3) * y of the first k framed rows. */
  lemma FramedRowsLayout(b: Board, k: nat, y: nat)
    requires b.Valid() && y < k <= b.height
    ensures |FramedRows(b, k)| == (b.width + 3) * k
    ensures FramedRows(b, k)[(b.width + 3) * y .. (b.width + 3) * (y + 1)] == "|" + RowText(b, y) + "|\n"
  {
    var n := b.width + 3;
    FramedRowsLength(b, k);
    FramedRowsLength(b, y);
    FramedRowsPrefix(b, y + 1, k);
    MulSucc(n, y);
    var prefix := FramedRows(b, y + 1);
    assert prefix == FramedRows(b, y) + ("|" + RowText(b, y) + "|\n");
    assert FramedRows(b, k)[n * y .. n * (y + 1)] == prefix[n * y .. n * (y + 1)];
  }

  /**
   * The rendering has height + 2 lines of width + 3 characters, the first
   * and the last of them the border line.
   */
  lemma RenderSize(b: Board)
    requires b.Valid()
    ensures |Render(b)| == (b.width + 3) * (b.height + 2)
    ensures Render(b)[..b.width + 3] == Border(b.width)
    ensures Render(b)[(b.width + 3) * (b.height + 1)..] == Border(b.width)
  {
    var n, h := b.width + 3, b.height;
    var rows := FramedRows(b, h);
    var border := Border(b.width);
    FramedRowsLength(b, h);
    assert Render(b) == border + rows + border;
    MulSucc(n, h);
    MulSucc(n, h + 1);
  }

  /** Line y + 1 of the rendering is '|', the glyphs of row y, '|' (grid.cpp:735-741). */
  lemma RenderRow(b: Board, y: nat)
    requires b.Valid() && y < b.height
    ensures (b.width + 3) * (y + 2) <= |Render(b)|
    ensures Render(b)[(b.width + 3) * (y + 1) .. (b.width + 3) * (y + 2)] == "|" + RowText(b, y) + "|\n"
  {
    var n, h := b.width + 3, b.height;
    var rows := FramedRows(b, h);
    var border := Border(b.width);
    FramedRowsLayout(b, h, y);
    assert Render(b) == border + rows + border;
    RowEnd(n, y, h);
    MulSucc(n, y + 1);
    assert Render(b)[n * (y + 1) .. n * (y + 2)] == rows[n * y .. n * (y + 1)];
  }
}

=== FILE: codecs.dfy ===
/**
 * The two file formats of zoo.cpp, stripped of their file handling: the
 * binary format packs cells into bytes least-significant bit first
 * (zoo.cpp:13-19), the ascii format writes one line of characters per row
 * (zoo.cpp:8-11). The load and save methods of module Zoo are proved
 * against these functions.
 */
module Codecs {
  import opened Errors
  import opened Boards

  // ---------------------------------------------------------------------------
  // Binary format (zoo.cpp:13-19, 274-399)
  // ---------------------------------------------------------------------------

  /** An unsigned 8-bit byte. */
  newtype byte = x: int | 0 <= x < 256

  function Pow2(n: nat): (p: nat)
    ensures p >= 1
  {
    if n == 0 then 1 else 2 * Pow2(n - 1)
  }

  /** Bit i of v, bit 0 being the least significant. */
  function BitOf(v: nat, i: nat): bool {
    if i == 0 then v % 2 == 1 else BitOf(v / 2, i - 1)
  }

  /** The number whose bit i is set exactly when chunk[i] is alive. */
  function ChunkValue(chunk: seq<Cell>): (v: nat)
    ensures v < Pow2(|chunk|)
  {
    if chunk == [] then 0 else (if chunk[0] == Alive then 1 else 0) + 2 * ChunkValue(chunk[1..])
  }

  /** A chunk of at most eight cells as one byte (zoo.cpp:377-390). */
  function PackChunk(chunk: seq<Cell>): (b: byte)
    requires |chunk| <= 8
  {
    PowMono(|chunk|, 8);
    ChunkValue(chunk) as byte
  }

  /**
   * The cells packed eight to a byte in order, the last byte holding the
   * remaining one to eight cells (zoo.cpp:369-392).
   */
  function Pack(cells: seq<Cell>): (bytes: seq<byte>)
    ensures |bytes| == (|cells| + 7) / 8
  {
    if cells == [] then []
    else if |cells| <= 8 then [PackChunk(cells)]
    else [PackChunk(cells[..8])] + Pack(cells[8..])
  }

  /** Bit k of a byte stream: bit k % 8 of byte k / 8 (zoo.cpp:291-298). */
  function StreamBit(bytes: seq<byte>, k: nat): bool
    requires k < 8 * |bytes|
  {
    BitOf(bytes[k / 8] as nat, k % 8)
  }

  /**
   * The first n cells a byte stream holds, or FormatError when it holds
   * fewer than n bits (zoo.cpp:300-313).
   */
  function Unpack(bytes: seq<byte>, n: nat): (r: Result<seq<Cell>>)
    ensures r.Ok? <==> n <= 8 * |bytes|
    ensures r.Err? ==> r.error == FormatError
    ensures r.Ok? ==> |r.value| == n
  {
    if n > 8 * |bytes| then Err(FormatError)
    else Ok(seq(n, k requires 0 <= k < n => if StreamBit(bytes, k) then Alive else Dead))
  }

  lemma {:induction false} PowMono(m: nat, n: nat)
    requires m <= n
    ensures Pow2(m) <= Pow2(n)
  {
    if m < n {
      PowMono(m, n - 1);
    }
  }

  lemma {:induction false} BitOfZero(i: nat)
    ensures !BitOf(0, i)
  {
    if i > 0 {
      BitOfZero(i - 1);
    }
  }

  /** Bit i of a packed chunk is set exactly when cell i is alive; bits past the chunk are zero. */
  lemma {:induction false} ChunkBits(chunk: seq<Cell>, i: nat)
    ensures BitOf(ChunkValue(chunk), i) == (i < |chunk| && chunk[i] == Alive)
  {
    if chunk == [] {
      BitOfZero(i);
    } else if i > 0 {
      var v := ChunkValue(chunk);
      assert v / 2 == ChunkValue(chunk[1..]);
      ChunkBits(chunk[1..], i - 1);
    }
  }

  /**
   * Cell k goes to bit k % 8 of byte k / 8, and the padding bits of the last
   * byte are zero (zoo.cpp:13-19, 369-392).
   */
  lemma {:induction false} PackBits(cells: seq<Cell>, k: nat)
    requires k < 8 * |Pack(cells)|
    ensures StreamBit(Pack(cells), k) == (k < |cells| && cells[k] == Alive)
  {
    var bytes := Pack(cells);
    if |cells| <= 8 {
      assert bytes[k / 8] as nat == ChunkValue(cells);
      ChunkBits(cells, k % 8);
    } else if k < 8 {
      assert bytes[0] as nat == ChunkValue(cells[..8]);
      ChunkBits(cells[..8], k);
    } else {
      var rest := cells[8..];
      assert bytes == [PackChunk(cells[..8])] + Pack(rest);
      assert bytes[k / 8] == Pack(rest)[(k - 8) / 8];
      assert k % 8 == (k - 8) % 8;
      PackBits(rest, k - 8);
    }
  }

  /** Packing a whole number of bytes' worth of cells and then the rest is packing everything. */
  lemma {:induction false} PackAppend(s: seq<Cell>, t: seq<Cell>)
    requires |s| % 8 == 0
    ensures Pack(s + t) == Pack(s) + Pack(t)
  {
    if t == [] {
      assert s + t == s;
    } else if s == [] {
      assert s + t == t;
    } else {
      assert (s + t)[..8] == s[..8];
      assert (s + t)[8..] == s[8..] + t;
      PackAppend(s[8..], t);
      if |s| == 8 {
        assert s[..8] == s && s[8..] == [];
      }
    }
  }

  /** Unpacking what was packed gives back every cell. */
  lemma UnpackPack(cells: seq<Cell>)
    ensures Unpack(Pack(cells), |cells|) == Ok(cells)
  {
    var n := |cells|;
    var bytes := Pack(cells);
    assert n <= 8 * |bytes|;
    var r := Unpack(bytes, n);
    forall k | 0 <= k < n
      ensures r.value[k] == cells[k]
    {
      PackBits(cells, k);
      assert r.value[k] == if StreamBit(bytes, k) then Alive else Dead;
    }
    assert r.value == cells;
  }

  // ---------------------------------------------------------------------------
  // Ascii format (zoo.cpp:8-11, 150-249)
  // ---------------------------------------------------------------------------

  /** The character for a cell: '#' for alive, the given character for dead. */
  function CellChar(c: Cell, dead: char): char {
    if c == Alive then '#' else dead
  }

  /** Row y as width characters (zoo.cpp:242-244). */
  function AsciiRow(b: Board, y: nat, dead: char): (s: string)
    requires b.Valid() && y < b.height
    ensures |s| == b.width
  {
    seq(b.width, x requires 0 <= x < b.width => CellChar(b.At(x, y), dead))
  }

  /** The first k rows, each followed by a newline (zoo.cpp:241-246). */
  function Rows(b: Board, k: nat, dead: char): (s: string)
    requires b.Valid() && k <= b.height
  {
    if k == 0 then "" else Rows(b, k - 1, dead) + AsciiRow(b, k - 1, dead) + "\n"
  }

  /** The decimal digits of n, most significant first. */
  function NatText(n: nat): (s: string)
    ensures |s| >= 1
  {
    if n < 10 then [Digit(n)] else NatText(n / 10) + [Digit(n % 10)]
  }

  function Digit(d: nat): char
    requires d < 10
  {
    "0123456789"[d]
  }

  /** The number a string of decimal digits denotes. */
  function DigitsValue(s: string): nat {
    if s == [] then 0 else 10 * DigitsValue(s[..|s| - 1]) + DigitValue(s[|s| - 1])
  }

  function DigitValue(c: char): nat {
    if '0' <= c <= '9' then c as nat - '0' as nat else 0
  }

  /** The header line "width height" (zoo.cpp:233-236). */
  function Header(w: nat, h: nat): string {
    NatText(w) + " " + NatText(h) + "\n"
  }

  /**
   * The whole ascii file of a board: header, then one line per row with
   * dead cells written as dead.
   */
  function AsciiFile(b: Board, dead: char): string
    requires b.Valid()
  {
    Header(b.width, b.height) + Rows(b, b.height, dead)
  }

  /** The characters getline delivers line by line: everything but the newlines (zoo.cpp:170-176). */
  function RemoveNewlines(s: string): (t: string)
    ensures |t| <= |s|
  {
    if s == [] then [] else RemoveNewlines(s[..|s| - 1]) + (if s[|s| - 1] == '\n' then [] else [s[|s| - 1]])
  }

  /** ' ' is dead, '#' is alive, anything else is a FormatError (zoo.cpp:182-189). */
  function ParseChar(ch: char): (r: Result<Cell>)
    ensures r.Ok? <==> ch == ' ' || ch == '#'
    ensures r.Ok? ==> CellChar(r.value, ' ') == ch
    ensures r.Err? ==> r.error == FormatError
  {
    if ch == ' ' then Ok(Dead) else if ch == '#' then Ok(Alive) else Err(FormatError)
  }

  /** The first n characters as cells; too few characters or a bad one is a FormatError. */
  function ParseCells(n: nat, chars: string): (r: Result<seq<Cell>>)
    ensures r.Err? ==> r.error == FormatError
    ensures r.Ok? <==> n <= |chars| && forall k :: 0 <= k < n ==> chars[k] == ' ' || chars[k] == '#'
    ensures r.Ok? ==> |r.value| == n && forall k :: 0 <= k < n ==> CellChar(r.value[k], ' ') == chars[k]
  {
    if n > |chars| then Err(FormatError)
    else if exists k :: 0 <= k < n && ParseChar(chars[k]).Err? then Err(FormatError)
    else Ok(seq(n, k requires 0 <= k < n => ParseChar(chars[k]).value))
  }

  /**
   * The grid an ascii body describes: a width or height below 1 is an
   * InvalidDimension (zoo.cpp:161-163); otherwise cell (i, j) comes from
   * character i + width * j of the body's lines (zoo.cpp:178-191).
   */
  function LoadText(w: int, h: int, body: string): (r: Result<Board>)
    ensures r == Err(InvalidDimension) <==> w < 1 || h < 1
    ensures r.Err? && w >= 1 && h >= 1 ==> r.error == FormatError
    ensures w >= 1 && h >= 1 ==> (r.Ok? <==> ParseCells(w * h, RemoveNewlines(body)).Ok?)
    ensures r.Ok? ==> r.value.Valid() && r.value.width == w && r.value.height == h
    ensures r.Ok? ==> forall k :: 0 <= k < w * h ==> CellChar(r.value.cells[k], ' ') == RemoveNewlines(body)[k]
  {
    if w < 1 || h < 1 then Err(InvalidDimension)
    else
      var cells := ParseCells(w * h, RemoveNewlines(body));
      if cells.Err? then Err(FormatError) else Ok(Board(w, h, cells.value))
  }

  lemma {:induction false} RemoveNewlinesAppend(s: string, t: string)
    ensures RemoveNewlines(s + t) == RemoveNewlines(s) + RemoveNewlines(t)
  {
    if t != [] {
      assert (s + t)[..|s + t| - 1] == s + t[..|t| - 1];
      RemoveNewlinesAppend(s, t[..|t| - 1]);
    } else {
      assert s + t == s;
    }
  }

  lemma {:induction false} RemoveNewlinesNone(s: string)
    requires forall k :: 0 <= k < |s| ==> s[k] != '\n'
    ensures RemoveNewlines(s) == s
  {
    if s != [] {
      RemoveNewlinesNone(s[..|s| - 1]);
    }
  }

  /** The characters of a run of cells, in order. */
  function CellChars(cells: seq<Cell>, dead: char): (s: string)
    ensures |s| == |cells|
  {
    seq(|cells|, i requires 0 <= i < |cells| => CellChar(cells[i], dead))
  }

  /** The body's characters without newlines are the cells' characters in row-major order. */
  lemma {:induction false} RowsChars(b: Board, k: nat, dead: char)
    requires b.Valid() && k <= b.height && dead != '\n'
    ensures b.width * k <= |b.cells|
    ensures RemoveNewlines(Rows(b, k, dead)) == CellChars(b.cells[..b.width * k], dead)
  {
    MulMono(b.width, k, b.height);
    if k > 0 {
      RowsChars(b, k - 1, dead);
      RowsCharsStep(b, k - 1, dead);
    }
  }

  /** Adding row y to the body adds its cells' characters to the flattened text. */
  lemma RowsCharsStep(b: Board, y: nat, dead: char)
    requires b.Valid() && y < b.height && dead != '\n'
    requires b.width * y <= |b.cells|
    requires RemoveNewlines(Rows(b, y, dead)) == CellChars(b.cells[..b.width * y], dead)
    ensures b.width * (y + 1) <= |b.cells|
    ensures RemoveNewlines(Rows(b, y + 1, dead)) == CellChars(b.cells[..b.width * (y + 1)], dead)
  {
    var w := b.width;
    RowEnd(w, y, b.height);
    RowsStep(b, y + 1, dead);
    RowIsCellChars(b, y, dead);
    CellCharsSplit(b.cells, w * y, w * y + w, dead);
  }

  /** The characters of a prefix split at i are those of the two parts. */
  lemma CellCharsSplit(cells: seq<Cell>, i: nat, j: nat, dead: char)
    requires i <= j <= |cells|
    ensures CellChars(cells[..i], dead) + CellChars(cells[i..j], dead) == CellChars(cells[..j], dead)
  {
  }

  /** Row y is the characters of the cells from offset width * y on. */
  lemma RowIsCellChars(b: Board, y: nat, dead: char)
    requires b.Valid() && y < b.height
    ensures b.width * y + b.width <= |b.cells|
    ensures AsciiRow(b, y, dead) == CellChars(b.cells[b.width * y .. b.width * y + b.width], dead)
  {
    var w := b.width;
    RowEnd(w, y, b.height);
    forall x | 0 <= x < w
      ensures AsciiRow(b, y, dead)[x] == CellChars(b.cells[w * y .. w * y + w], dead)[x]
    {
      assert b.Offset(x, y) == x + w * y;
    }
  }

  /** Removing the newlines from k rows adds row k - 1 to what the first k - 1 rows give. */
  lemma RowsStep(b: Board, k: nat, dead: char)
    requires b.Valid() && 0 < k <= b.height && dead != '\n'
    ensures RemoveNewlines(Rows(b, k, dead)) == RemoveNewlines(Rows(b, k - 1, dead)) + AsciiRow(b, k - 1, dead)
  {
    var row := AsciiRow(b, k - 1, dead);
    RemoveNewlinesAppend(Rows(b, k - 1, dead) + row, "\n");
    RemoveNewlinesAppend(Rows(b, k - 1, dead), row);
    RemoveNewlinesNone(row);
    assert RemoveNewlines("\n") == [];
  }

  /** Loading what save_ascii writes, with dead cells as ' ', gives back the board. */
  lemma AsciiRoundTrip(b: Board)
    requires b.Valid() && b.width >= 1 && b.height >= 1
    ensures LoadText(b.width, b.height, Rows(b, b.height, ' ')) == Ok(b)
  {
    var n := b.width * b.height;
    var rows := Rows(b, b.height, ' ');
    var chars := RemoveNewlines(rows);
    RowsChars(b, b.height, ' ');
    assert b.cells[..n] == b.cells;
    ParseWritten(n, chars, b.cells);
  }

  /** The text save_ascii writes after the two header numbers loads back as the saved board. */
  lemma AsciiFileRoundTrip(b: Board)
    requires b.Valid() && b.width >= 1 && b.height >= 1
    ensures var numbers := |NatText(b.width)| + 1 + |NatText(b.height)|;
            numbers <= |AsciiFile(b, ' ')| && LoadText(b.width, b.height, AsciiFile(b, ' ')[numbers..]) == Ok(b)
  {
    var rows := Rows(b, b.height, ' ');
    var body := AsciiFile(b, ' ')[|NatText(b.width)| + 1 + |NatText(b.height)|..];
    assert body == "\n" + rows;
    LeadingNewline(rows);
    LoadTextSeesCharacters(b.width, b.height, body, rows);
    AsciiRoundTrip(b);
  }

  lemma LeadingNewline(s: string)
    ensures RemoveNewlines("\n" + s) == RemoveNewlines(s)
  {
    RemoveNewlinesAppend("\n", s);
    assert RemoveNewlines("\n") == [];
  }

  /** Only the characters other than newlines matter to LoadText. */
  lemma LoadTextSeesCharacters(w: int, h: int, s: string, t: string)
    requires RemoveNewlines(s) == RemoveNewlines(t)
    ensures LoadText(w, h, s) == LoadText(w, h, t)
  {
  }

  /** Characters written with ' ' for dead parse back to the cells they were written from. */
  lemma ParseWritten(n: nat, chars: string, cells: seq<Cell>)
    requires |cells| == n <= |chars|
    requires forall k :: 0 <= k < n ==> chars[k] == CellChar(cells[k], ' ')
    ensures ParseCells(n, chars) == Ok(cells)
  {
    assert forall k :: 0 <= k < n ==> ParseChar(chars[k]) == Ok(cells[k]);
    var r := ParseCells(n, chars);
    assert r.Ok?;
    assert r.value == cells;
  }

  /** The ascii rows are the rows of the bordered rendering. */
  lemma AsciiRowIsRowText(b: Board, y: nat)
    requires b.Valid() && y < b.height
    ensures AsciiRow(b, y, ' ') == RowText(b, y)
  {
  }

  /** Reading the decimal digits back gives the number. */
  lemma {:induction false} NatTextRoundTrip(n: nat)
    ensures DigitsValue(NatText(n)) == n
    ensures forall k :: 0 <= k < |NatText(n)| ==> '0' <= NatText(n)[k] <= '9'
  {
    if n >= 10 {
      NatTextRoundTrip(n / 10);
      var s := NatText(n);
      assert s[..|s| - 1] == NatText(n / 10);
    }
  }

  /** k rows take (width + 1) * k characters. */
  lemma {:induction false} RowsLength(b: Board, k: nat, dead: char)
    requires b.Valid() && k <= b.height
    ensures |Rows(b, k, dead)| == (b.width + 1) * k
  {
    if k > 0 {
      RowsLength(b, k - 1, dead);
      MulSucc(b.width + 1, k - 1);
    }
  }

  /** The first j rows are a prefix of the first k. */
  lemma {:induction false} RowsPrefix(b: Board, j: nat, k: nat, dead: char)
    requires b.Valid() && j <= k <= b.height
    ensures |Rows(b, j, dead)| <= |Rows(b, k, dead)|
    ensures Rows(b, k, dead)[..|Rows(b, j, dead)|] == Rows(b, j, dead)
  {
    if j < k {
      RowsPrefix(b, j, k - 1, dead);
    }
  }

  /**
   * The file save_ascii writes: the header, then exactly height lines of
   * width characters each ending in a newline (zoo.cpp:233-246).
   */
  lemma RowsLayout(b: Board, k: nat, dead: char, y: nat)
    requires b.Valid() && k <= b.height && y < k
    ensures |Rows(b, k, dead)| == (b.width + 1) * k
    ensures Rows(b, k, dead)[(b.width + 1) * y .. (b.width + 1) * (y + 1)] == AsciiRow(b, y, dead) + "\n"
  {
    var n := b.width + 1;
    RowsLength(b, k, dead);
    RowsLength(b, y, dead);
    RowsPrefix(b, y + 1, k, dead);
    MulSucc(n, y);
    var prefix := Rows(b, y + 1, dead);
    assert prefix == Rows(b, y, dead) + (AsciiRow(b, y, dead) + "\n");
    assert Rows(b, k, dead)[n * y .. n * (y + 1)] == prefix[n * y .. n * (y + 1)];
  }

  // ---------------------------------------------------------------------------
  // The dead character as written (see Findings)
  // ---------------------------------------------------------------------------

  /**
   * save_ascii writes char(cell), and the enum gives DEAD the character '0'
   * (grid.h:21-24, zoo.cpp:243): a saved board with a dead cell in it no
   * longer loads.
   */
  lemma AsWrittenDeadCellRejected(b: Board, x: nat, y: nat)
    requires b.Valid() && x < b.width && y < b.height && b.At(x, y) == Dead
    ensures LoadText(b.width, b.height, Rows(b, b.height, '0')) == Err(FormatError)
  {
    var n := b.width * b.height;
    var chars := RemoveNewlines(Rows(b, b.height, '0'));
    RowsChars(b, b.height, '0');
    assert b.cells[..n] == b.cells;
    var k := b.Offset(x, y);
    assert chars[k] == '0';
    assert ParseChar(chars[k]).Err?;
  }
}

=== FILE: errors.dfy ===
/** The failures the grid engine and its file codecs report. */
module Errors {

  /**
   * OutOfBounds: a coordinate or window outside the grid (grid.cpp:485-486, 631-633, 685-686).
   * InvalidDimension: a width or height below 1 where a positive one is needed (zoo.cpp:161-163).
   * FormatError: persisted data that does not decode to cells (zoo.cpp:186-189, 304-311).
   */
  datatype Error = OutOfBounds | InvalidDimension | FormatError

  /** A value, or the error the source would have thrown instead. */
  datatype Result<T> = Ok(value: T) | Err(error: Error)

  /** The outcome of an operation that returns nothing but may throw. */
  datatype Outcome = Pass | Fail(error: Error)
}

=== FILE: grid.dfy ===
/**
 * The Grid class of grid.cpp: a width × height grid of cells held as a
 * row-major sequence that its methods rebuild or update in place. Every
 * method is proved against the value functions of module Boards.
 */
module Grids {
  import opened Errors
  import opened Boards

  class Grid {
    var width: nat
    var height: nat
    var cells: seq<Cell>

    /** The grid's contents as a value. */
    function Value(): Board
      reads this
    {
      Board(width, height, cells)
    }

    /** The size invariant of every grid: exactly width * height cells. */
    predicate Valid()
      reads this
    {
      Value().Valid()
    }

    /** Grid(): an empty 0 × 0 grid (grid.cpp:20-35). */
    constructor Empty()
      ensures Valid() && Value() == Board(0, 0, [])
    {
      width, height, cells := 0, 0, [];
    }

    /** Grid(square_size): a size × size grid of dead cells (grid.cpp:37-66). */
    constructor Square(size: nat)
      ensures Valid() && Value() == Blank(size, size)
    {
      var s := DeadRun(size * size);
      width, height, cells := size, size, s;
    }

    /** Grid(width, height): a w × h grid of dead cells (grid.cpp:68-90). */
    constructor (w: nat, h: nat)
      ensures Valid() && Value() == Blank(w, h)
    {
      var s := DeadRun(w * h);
      width, height, cells := w, h, s;
    }

    /** get_total_cells: the number of cells the grid holds (grid.cpp:147-172). */
    function TotalCells(): (n: nat)
      reads this
      requires Valid()
      ensures n == |cells|
    {
      width * height
    }

    /** get_alive_cells: counts the alive cells in one pass (grid.cpp:174-205). */
    method AliveCells() returns (count: nat)
      requires Valid()
      ensures count == Count(cells, Alive)
      ensures count <= TotalCells()
    {
      count := CountState(Alive);
    }

    /** get_dead_cells: counts the dead cells in one pass (grid.cpp:208-239). */
    method DeadCells() returns (count: nat)
      requires Valid()
      ensures count == Count(cells, Dead)
      ensures count == TotalCells() - Count(cells, Alive)
    {
      count := CountState(Dead);
      CountsPartition(cells);
    }

    method CountState(c: Cell) returns (count: nat)
      requires Valid()
      ensures count == Count(cells, c)
    {
      count := 0;
      var total := |cells|;
      var i := 0;
      while i < total
        invariant 0 <= i <= total
        invariant count == Count(cells[..i], c)
      {
        assert cells[..i + 1][..i] == cells[..i];
        if cells[i] == c {
          count := count + 1;
        }
        i := i + 1;
      }
      assert cells[..i] == cells;
    }

    /**
     * get(x, y): the cell at (x, y), or OutOfBounds when (x, y) lies outside
     * [0, width) × [0, height) (grid.cpp:460-491, 566-599).
     */
    function Get(x: int, y: int): (r: Result<Cell>)
      reads this
      requires Valid()
      ensures r.Ok? <==> 0 <= x < width && 0 <= y < height
      ensures r.Err? ==> r.error == OutOfBounds
      ensures r.Ok? ==> r.value == Value().At(x, y)
    {
      if Value().InBounds(x, y) then Ok(Value().At(x, y)) else Err(OutOfBounds)
    }

    /**
     * set(x, y, value): overwrites the cell at (x, y) and no other; outside
     * the grid it fails with OutOfBounds and changes nothing (grid.cpp:494-564).
     */
    method Set(x: int, y: int, v: Cell) returns (r: Outcome)
      requires Valid()
      modifies this
      ensures Valid() && width == old(width) && height == old(height)
      ensures r.Pass? <==> 0 <= x < width && 0 <= y < height
      ensures r.Fail? ==> r.error == OutOfBounds && cells == old(cells)
      ensures r.Pass? ==> Value() == old(Value()).Put(x, y, v) && Get(x, y) == Ok(v)
    {
      if !Value().InBounds(x, y) {
        return Fail(OutOfBounds);
      }
      ghost var before := Value();
      cells := cells[Value().Offset(x, y) := v];
      PutAt(before, x, y, v, x, y);
      r := Pass;
    }

    /**
     * resize(w, h): rebuilds the cells so that the kept region keeps its
     * values and every new cell is dead (grid.cpp:339-436).
     */
    method Resize(w: nat, h: nat)
      requires Valid()
      modifies this
      ensures Valid() && Value() == old(Value()).Resized(w, h)
    {
      var src := Value();
      ghost var target := src.Resized(w, h);
      var acc: seq<Cell> := [];
      var y := 0;
      while y < h
        invariant y <= h
        invariant acc == target.cells[..w * y]
      {
        RowEnd(w, y, h);
        var x := 0;
        while x < w
          invariant x <= w
          invariant w * y + w <= w * h
          invariant acc == target.cells[..w * y + x]
        {
          var c := if x < src.width && y < src.height then src.At(x, y) else Dead;
          ResizedAt(src, w, h, x, y);
          assert target.Offset(x, y) == w * y + x;
          acc := acc + [c];
          x := x + 1;
        }
        y := y + 1;
      }
      assert acc == target.cells;
      width, height, cells := w, h, acc;
    }

    /** resize(square_size): the same as resize(square_size, square_size) (grid.cpp:242-336). */
    method ResizeSquare(size: nat)
      requires Valid()
      modifies this
      ensures Valid() && Value() == old(Value()).Resized(size, size)
    {
      Resize(size, size);
    }

    /**
     * crop(x0, y0, x1, y1): a new grid holding the window [x0, x1) × [y0, y1);
     * a window outside the grid or of negative size is OutOfBounds
     * (grid.cpp:601-648). The grid itself is not changed.
     */
    method Crop(x0: int, y0: int, x1: int, y1: int) returns (r: Result<Grid>)
      requires Valid()
      ensures r.Ok? <==> 0 <= x0 <= x1 <= width && 0 <= y0 <= y1 <= height
      ensures r.Err? ==> r.error == OutOfBounds
      ensures r.Ok? ==> fresh(r.value) && r.value.Valid() && r.value.Value() == Value().Cropped(x0, y0, x1, y1)
    {
      if !(0 <= x0 <= x1 <= width && 0 <= y0 <= y1 <= height) {
        return Err(OutOfBounds);
      }
      var src := Value();
      var cw, ch := x1 - x0, y1 - y0;
      ghost var target := src.Cropped(x0, y0, x1, y1);
      var acc: seq<Cell> := [];
      var y := y0;
      ghost var row: nat, done: nat := 0, 0;
      while y < y1
        invariant y0 <= y <= y1 && row == y - y0 && done == cw * row && done <= |target.cells|
        invariant acc == target.cells[..done]
      {
        RowEnd(cw, row, ch);
        var x := x0;
        while x < x1
          invariant x0 <= x <= x1 && done == cw * row + (x - x0) && done + (x1 - x) <= |target.cells|
          invariant acc == target.cells[..done]
        {
          CroppedCell(src, x0, y0, x1, y1, x - x0, row);
          acc := acc + [src.At(x, y)];
          x, done := x + 1, done + 1;
        }
        y, row := y + 1, row + 1;
      }
      assert acc == target.cells;
      var g := new Grid(cw, ch);
      g.cells := acc;
      r := Ok(g);
    }

    /**
     * merge(other, x0, y0, alive_only): lays other over this grid with its
     * top-left corner at (x0, y0); OutOfBounds, with nothing changed, when it
     * does not fit (grid.cpp:651-690).
     */
    method Merge(other: Grid, x0: int, y0: int, aliveOnly: bool) returns (r: Outcome)
      requires Valid() && other.Valid()
      modifies this
      ensures Valid()
      ensures r.Pass? <==> old(Value()).Fits(old(other.Value()), x0, y0)
      ensures r.Fail? ==> r.error == OutOfBounds && Value() == old(Value())
      ensures r.Pass? ==> Value() == old(Value()).Merged(old(other.Value()), x0, y0, aliveOnly)
    {
      var b, o := Value(), other.Value();
      if !b.Fits(o, x0, y0) {
        return Fail(OutOfBounds);
      }
      cells := b.Merged(o, x0, y0, aliveOnly).cells;
      r := Pass;
    }

    /**
     * rotate(rotation): a new grid turned clockwise by rotation quarter
     * turns, any integer allowed; the grid itself is not changed (grid.cpp:693-714).
     */
    method Rotate(rotation: int) returns (g: Grid)
      requires Valid()
      ensures fresh(g) && g.Valid() && g.Value() == Value().Rotated(rotation)
    {
      var b := Value().Rotated(rotation);
      g := new Grid(b.width, b.height);
      g.cells := b.cells;
    }

    /** operator<<: the bordered text form of the grid (grid.cpp:717-751). */
    function ToText(): (s: string)
      reads this
      requires Valid()
      ensures |s| == (width + 3) * (height + 2)
    {
      RenderSize(Value());
      Render(Value())
    }
  }

  /** A run of n dead cells, appended one at a time (grid.cpp:63-65, 87-89). */
  method DeadRun(n: nat) returns (s: seq<Cell>)
    ensures s == seq(n, _ => Dead)
  {
    s := [];
    var i := 0;
    while i < n
      invariant i <= n
      invariant s == seq(i, _ => Dead)
    {
      s := s + [Dead];
      i := i + 1;
    }
  }
}

=== FILE: life.dfy ===
/**
 * Conway's Game of Life on a board, as world.cpp computes it: the
 * neighbour count of world.cpp:423-468, the update rule of world.cpp:490-510
 * and the repeated stepping of world.cpp:526-531, stated as functions on
 * boards that the World class is proved against.
 */
module Life {
  import opened Boards

  // ---------------------------------------------------------------------------
  // Neighbour count (world.cpp:392-468)
  // ---------------------------------------------------------------------------

  /**
   * The single wrap step for a coordinate one past either edge: -1 becomes
   * n - 1 and n becomes 0 (world.cpp:439-450). It agrees with the Euclidean
   * remainder, so it is the torus coordinate.
   */
  function Wrap(i: int, n: nat): (r: nat)
    requires n > 0 && -1 <= i <= n
    ensures r < n && r == i % n
  {
    if i < 0 then n + i else if i >= n then i - n else i
  }

  /**
   * What the neighbour at (i, j) adds to the count around (x, y): nothing
   * for the centre itself; on a torus, the wrapped cell when (i, j) is off
   * the grid; otherwise the cell, or nothing when (i, j) is off the grid
   * (world.cpp:429-463).
   */
  function Contribution(b: Board, x: nat, y: nat, i: int, j: int, toroidal: bool): nat
    requires b.Valid() && x < b.width && y < b.height
    requires x - 1 <= i <= x + 1 && y - 1 <= j <= y + 1
  {
    if i == x && j == y then 0
    else if toroidal then
      if !b.InBounds(i, j) then
        (if b.At(Wrap(i, b.width), Wrap(j, b.height)) == Alive then 1 else 0)
      else if b.At(i, j) == Alive then 1 else 0
    else if !b.InBounds(i, j) then 0
    else if b.At(i, j) == Alive then 1 else 0
  }

  /** The contributions of the first k columns x-1, x, x+1 of row j. */
  function RowSum(b: Board, x: nat, y: nat, j: int, k: nat, toroidal: bool): nat
    requires b.Valid() && x < b.width && y < b.height
    requires y - 1 <= j <= y + 1 && k <= 3
  {
    if k == 0 then 0 else RowSum(b, x, y, j, k - 1, toroidal) + Contribution(b, x, y, x - 2 + k, j, toroidal)
  }

  /** The contributions of the first m rows y-1, y, y+1. */
  function BlockSum(b: Board, x: nat, y: nat, m: nat, toroidal: bool): nat
    requires b.Valid() && x < b.width && y < b.height
    requires m <= 3
  {
    if m == 0 then 0 else BlockSum(b, x, y, m - 1, toroidal) + RowSum(b, x, y, y - 2 + m, 3, toroidal)
  }

  /** The number of alive neighbours of (x, y) (world.cpp:392-422). */
  function Neighbours(b: Board, x: nat, y: nat, toroidal: bool): (n: nat)
    requires b.Valid() && x < b.width && y < b.height
  {
    BlockSum(b, x, y, 3, toroidal)
  }

  /**
   * Whether the cell at (i, j) is alive, as a count: on a torus the
   * coordinates are taken modulo the dimensions; otherwise a cell off the
   * grid is dead. An independent statement of what the neighbour count reads.
   */
  function LiveAt(b: Board, i: int, j: int, toroidal: bool): nat
    requires b.Valid()
  {
    if toroidal then
      (if b.width > 0 && b.height > 0 && b.At(i % b.width, j % b.height) == Alive then 1 else 0)
    else if b.InBounds(i, j) && b.At(i, j) == Alive then 1 else 0
  }

  /**
   * count_neighbours counts exactly the alive cells at the eight offsets
   * around (x, y), wrapped on a torus and clipped otherwise; the offset
   * (0, 0) is skipped, although on a torus one cell wide or one cell high a
   * wrapped offset can land on the centre and count it (world.cpp:398-405, 429-463).
   */
  lemma NeighboursReference(b: Board, x: nat, y: nat, toroidal: bool)
    requires b.Valid() && x < b.width && y < b.height
    ensures Neighbours(b, x, y, toroidal) ==
              LiveAt(b, x - 1, y - 1, toroidal) + LiveAt(b, x, y - 1, toroidal) + LiveAt(b, x + 1, y - 1, toroidal)
            + LiveAt(b, x - 1, y, toroidal)                                     + LiveAt(b, x + 1, y, toroidal)
            + LiveAt(b, x - 1, y + 1, toroidal) + LiveAt(b, x, y + 1, toroidal) + LiveAt(b, x + 1, y + 1, toroidal)
  {
    RowSumExpand(b, x, y, y - 1, toroidal);
    RowSumExpand(b, x, y, y, toroidal);
    RowSumExpand(b, x, y, y + 1, toroidal);
    assert BlockSum(b, x, y, 1, toroidal) == RowSum(b, x, y, y - 1, 3, toroidal);
    assert BlockSum(b, x, y, 2, toroidal) == BlockSum(b, x, y, 1, toroidal) + RowSum(b, x, y, y, 3, toroidal);
    assert Neighbours(b, x, y, toroidal) == BlockSum(b, x, y, 2, toroidal) + RowSum(b, x, y, y + 1, 3, toroidal);
    assert Contribution(b, x, y, x, y, toroidal) == 0;
    ContributionIsLiveAt(b, x, y, x - 1, y - 1, toroidal);
    ContributionIsLiveAt(b, x, y, x, y - 1, toroidal);
    ContributionIsLiveAt(b, x, y, x + 1, y - 1, toroidal);
    ContributionIsLiveAt(b, x, y, x - 1, y, toroidal);
    ContributionIsLiveAt(b, x, y, x + 1, y, toroidal);
    ContributionIsLiveAt(b, x, y, x - 1, y + 1, toroidal);
    ContributionIsLiveAt(b, x, y, x, y + 1, toroidal);
    ContributionIsLiveAt(b, x, y, x + 1, y + 1, toroidal);
  }

  lemma ContributionIsLiveAt(b: Board, x: nat, y: nat, i: int, j: int, toroidal: bool)
    requires b.Valid() && x < b.width && y < b.height
    requires x - 1 <= i <= x + 1 && y - 1 <= j <= y + 1 && !(i == x && j == y)
    ensures Contribution(b, x, y, i, j, toroidal) == LiveAt(b, i, j, toroidal)
  {
    if toroidal && b.InBounds(i, j) {
      assert Wrap(i, b.width) == i && Wrap(j, b.height) == j;
    }
  }

  lemma RowSumExpand(b: Board, x: nat, y: nat, j: int, toroidal: bool)
    requires b.Valid() && x < b.width && y < b.height && y - 1 <= j <= y + 1
    ensures RowSum(b, x, y, j, 3, toroidal) ==
      Contribution(b, x, y, x - 1, j, toroidal) + Contribution(b, x, y, x, j, toroidal) + Contribution(b, x, y, x + 1, j, toroidal)
  {
    assert RowSum(b, x, y, j, 1, toroidal) == Contribution(b, x, y, x - 1, j, toroidal);
  }

  /** A cell has at most eight alive neighbours (world.cpp:398-399). */
  lemma NeighboursAtMostEight(b: Board, x: nat, y: nat, toroidal: bool)
    requires b.Valid() && x < b.width && y < b.height
    ensures Neighbours(b, x, y, toroidal) <= 8
  {
    NeighboursReference(b, x, y, toroidal);
  }

  /**
   * On a torus one cell wide and one cell high every wrapped offset lands
   * on the centre, so the cell counts itself eight times: an alive cell has
   * eight neighbours and a dead one none (world.cpp:398-399, 439-450).
   */
  lemma OneCellTorusCountsItself(b: Board)
    requires b.Valid() && b.width == 1 && b.height == 1
    ensures Neighbours(b, 0, 0, true) == if b.At(0, 0) == Alive then 8 else 0
  {
    NeighboursReference(b, 0, 0, true);
    forall i: int, j: int
      ensures LiveAt(b, i, j, true) == if b.At(0, 0) == Alive then 1 else 0
    {
      assert i % 1 == 0 && j % 1 == 0;
    }
  }

  /** One step from x on a cycle of at least two cells never wraps back onto x. */
  lemma WrapMissesCentre(x: nat, d: int, n: nat)
    requires 2 <= n && x < n && -1 <= d <= 1 && d != 0
    ensures (x + d) % n != x
  {
    var r := Wrap(x + d, n);
  }

  /**
   * Overwriting the centre leaves what any of its eight neighbours adds
   * unchanged, on a torus at least two cells in each direction or off one.
   */
  lemma LiveAtAwayFromCentre(b: Board, x: nat, y: nat, c: Cell, i: int, j: int, toroidal: bool)
    requires b.Valid() && x < b.width && y < b.height
    requires -1 <= i - x <= 1 && -1 <= j - y <= 1 && (i != x || j != y)
    requires toroidal ==> b.width >= 2 && b.height >= 2
    ensures LiveAt(b.Put(x, y, c), i, j, toroidal) == LiveAt(b, i, j, toroidal)
  {
    if toroidal {
      if i != x {
        WrapMissesCentre(x, i - x, b.width);
      } else {
        WrapMissesCentre(y, j - y, b.height);
      }
      PutAt(b, x, y, c, i % b.width, j % b.height);
    } else if b.InBounds(i, j) {
      PutAt(b, x, y, c, i, j);
    }
  }

  /**
   * A cell is not its own neighbour (world.cpp:399): its count does not
   * depend on its own state, clipped or on a torus at least two cells wide
   * and two cells high. OneCellTorusCountsItself shows the torus bound is needed.
   */
  lemma CentreIsNotANeighbour(b: Board, x: nat, y: nat, c: Cell, toroidal: bool)
    requires b.Valid() && x < b.width && y < b.height
    requires toroidal ==> b.width >= 2 && b.height >= 2
    ensures Neighbours(b.Put(x, y, c), x, y, toroidal) == Neighbours(b, x, y, toroidal)
  {
    var p := b.Put(x, y, c);
    NeighboursReference(b, x, y, toroidal);
    NeighboursReference(p, x, y, toroidal);
    forall i: int, j: int | -1 <= i - x <= 1 && -1 <= j - y <= 1 && (i != x || j != y)
      ensures LiveAt(p, i, j, toroidal) == LiveAt(b, i, j, toroidal)
    {
      LiveAtAwayFromCentre(b, x, y, c, i, j, toroidal);
    }
  }

  // ---------------------------------------------------------------------------
  // The rule and the generations (world.cpp:470-531)
  // ---------------------------------------------------------------------------

  /**
   * The next state of a cell with n alive neighbours, in the collapsed form
   * world.cpp:497-504 uses; its contract is the four rules of world.cpp:481-484:
   * a live cell survives with two or three neighbours, a dead one is born
   * with exactly three, every other cell is dead.
   */
  function NextCell(c: Cell, n: nat): (r: Cell)
    ensures r.Alive? <==> (c.Alive? && (n == 2 || n == 3)) || (c.Dead? && n == 3)
  {
    if n == 3 then Alive else if n == 2 then c else Dead
  }

  /** The generation after b: every cell updated from b alone (world.cpp:490-507). */
  function NextGeneration(b: Board, toroidal: bool): (g: Board)
    requires b.Valid()
    ensures g.Valid() && g.width == b.width && g.height == b.height
  {
    Tabulate(b.width, b.height,
      (x: nat, y: nat) => if x < b.width && y < b.height then NextCell(b.At(x, y), Neighbours(b, x, y, toroidal)) else Dead)
  }

  lemma NextGenerationAt(b: Board, toroidal: bool, x: nat, y: nat)
    requires b.Valid() && x < b.width && y < b.height
    ensures NextGeneration(b, toroidal).At(x, y) == NextCell(b.At(x, y), Neighbours(b, x, y, toroidal))
  {
    TabulateAt(b.width, b.height,
      (x: nat, y: nat) => if x < b.width && y < b.height then NextCell(b.At(x, y), Neighbours(b, x, y, toroidal)) else Dead,
      x, y);
  }

  /** The board after k generations (world.cpp:513-531). */
  function Generations(b: Board, k: nat, toroidal: bool): (g: Board)
    requires b.Valid()
    ensures g.Valid() && g.width == b.width && g.height == b.height
  {
    if k == 0 then b else NextGeneration(Generations(b, k - 1, toroidal), toroidal)
  }

  /** Advancing m generations and then n more is advancing m + n. */
  lemma {:induction false} GenerationsCompose(b: Board, m: nat, n: nat, toroidal: bool)
    requires b.Valid()
    ensures Generations(Generations(b, m, toroidal), n, toroidal) == Generations(b, m + n, toroidal)
  {
    if n > 0 {
      GenerationsCompose(b, m, n - 1, toroidal);
    }
  }

  /** A cell none of whose eight neighbours is alive is dead in the next generation, on any topology. */
  lemma LonelyCellDies(b: Board, x: nat, y: nat, toroidal: bool)
    requires b.Valid() && x < b.width && y < b.height
    requires LiveAt(b, x - 1, y - 1, toroidal) == LiveAt(b, x, y - 1, toroidal) == LiveAt(b, x + 1, y - 1, toroidal) == 0
    requires LiveAt(b, x - 1, y, toroidal) == LiveAt(b, x + 1, y, toroidal) == 0
    requires LiveAt(b, x - 1, y + 1, toroidal) == LiveAt(b, x, y + 1, toroidal) == LiveAt(b, x + 1, y + 1, toroidal) == 0
    ensures NextGeneration(b, toroidal).At(x, y) == Dead
  {
    NeighboursReference(b, x, y, toroidal);
    NextGenerationAt(b, toroidal, x, y);
  }

  // ---------------------------------------------------------------------------
  // Writing into a scratch grid (world.cpp:490-510)
  // ---------------------------------------------------------------------------

  /**
   * What step leaves in a cell of the scratch grid: a cell with two or
   * three neighbours that is alive, or dead with three, is written alive; a
   * cell with any other count is written dead; a dead cell with exactly two
   * neighbours is not written and keeps the stale value (world.cpp:494-507).
   */
  function StepCell(c: Cell, n: nat, stale: Cell): (r: Cell)
    ensures n != 2 || c.Alive? ==> r == NextCell(c, n)
    ensures n == 2 && c.Dead? ==> r == stale
  {
    if n == 2 || n == 3 then
      if c == Alive then Alive
      else if n == 3 then Alive
      else stale
    else Dead
  }

  /** The scratch grid nxt after step has written every cell of it. */
  function StepInto(cur: Board, nxt: Board, toroidal: bool): (g: Board)
    requires cur.Valid() && nxt.Valid() && nxt.width == cur.width && nxt.height == cur.height
    ensures g.Valid() && g.width == cur.width && g.height == cur.height
  {
    Tabulate(cur.width, cur.height, (x: nat, y: nat) =>
      if x < cur.width && y < cur.height then StepCell(cur.At(x, y), Neighbours(cur, x, y, toroidal), nxt.At(x, y))
      else Dead)
  }

  lemma StepIntoAt(cur: Board, nxt: Board, toroidal: bool, x: nat, y: nat)
    requires cur.Valid() && nxt.Valid() && nxt.width == cur.width && nxt.height == cur.height
    requires x < cur.width && y < cur.height
    ensures StepInto(cur, nxt, toroidal).At(x, y) == StepCell(cur.At(x, y), Neighbours(cur, x, y, toroidal), nxt.At(x, y))
  {
    TabulateAt(cur.width, cur.height, (x: nat, y: nat) =>
      if x < cur.width && y < cur.height then StepCell(cur.At(x, y), Neighbours(cur, x, y, toroidal), nxt.At(x, y))
      else Dead, x, y);
  }

  /**
   * The condition under which the unwritten cells are harmless: nxt has the
   * shape of cur and is dead wherever cur is dead. A blank grid and a copy
   * of cur both qualify, which is what the constructors (world.cpp:100-109,
   * 136-145) and step itself (world.cpp:509) leave behind.
   */
  predicate Scratch(cur: Board, nxt: Board) {
    cur.Valid() && nxt.Valid() && nxt.width == cur.width && nxt.height == cur.height
    && forall k :: 0 <= k < |cur.cells| && cur.cells[k] == Dead ==> nxt.cells[k] == Dead
  }

  lemma BlankIsScratch(cur: Board)
    requires cur.Valid()
    ensures Scratch(cur, Blank(cur.width, cur.height))
  {
  }

  /** Under Scratch, what step writes is exactly the next generation of Conway's rule. */
  lemma StepIntoIsNextGeneration(cur: Board, nxt: Board, toroidal: bool)
    requires Scratch(cur, nxt)
    ensures StepInto(cur, nxt, toroidal) == NextGeneration(cur, toroidal)
  {
    forall x: nat, y: nat | x < cur.width && y < cur.height
      ensures StepInto(cur, nxt, toroidal).At(x, y) == NextGeneration(cur, toroidal).At(x, y)
    {
      StepIntoAt(cur, nxt, toroidal, x, y);
      NextGenerationAt(cur, toroidal, x, y);
      assert cur.At(x, y) == cur.cells[cur.Offset(x, y)];
    }
    Extensionality(StepInto(cur, nxt, toroidal), NextGeneration(cur, toroidal));
  }

  /**
   * Without Scratch the rule is broken: on the row [alive, dead, alive],
   * not toroidal, the middle cell has two neighbours and must stay dead, but
   * a scratch grid that holds it alive leaves it alive.
   */
  lemma StepIntoNeedsScratch()
    ensures var cur := Board(3, 1, [Alive, Dead, Alive]);
            var nxt := Board(3, 1, [Dead, Alive, Dead]);
            StepInto(cur, nxt, false).At(1, 0) == Alive && NextGeneration(cur, false).At(1, 0) == Dead
  {
    StaleMiddleSurvives();
    MiddleDies();
  }

  lemma StaleMiddleSurvives()
    ensures StepInto(Board(3, 1, [Alive, Dead, Alive]), Board(3, 1, [Dead, Alive, Dead]), false).At(1, 0) == Alive
  {
    var cur := Board(3, 1, [Alive, Dead, Alive]);
    var nxt := Board(3, 1, [Dead, Alive, Dead]);
    MiddleOfRowHasTwo();
    assert cur.At(1, 0) == cur.cells[1];
    assert nxt.At(1, 0) == nxt.cells[1];
    StepIntoAt(cur, nxt, false, 1, 0);
  }

  lemma MiddleDies()
    ensures NextGeneration(Board(3, 1, [Alive, Dead, Alive]), false).At(1, 0) == Dead
  {
    var cur := Board(3, 1, [Alive, Dead, Alive]);
    MiddleOfRowHasTwo();
    assert cur.At(1, 0) == cur.cells[1];
    NextGenerationAt(cur, false, 1, 0);
  }

  lemma MiddleOfRowHasTwo()
    ensures Neighbours(Board(3, 1, [Alive, Dead, Alive]), 1, 0, false) == 2
  {
    var cur := Board(3, 1, [Alive, Dead, Alive]);
    assert cur.At(0, 0) == cur.cells[0];
    assert cur.At(2, 0) == cur.cells[2];
    NeighboursReference(cur, 1, 0, false);
  }

  /** Three alive cells under three dead ones, and the bar of two they turn into. */
  const Row: Board := Board(3, 2, [Dead, Dead, Dead, Alive, Alive, Alive])
  const Bar: Board := Board(3, 2, [Dead, Alive, Dead, Dead, Alive, Dead])

  /**
   * Why step copies rather than swaps. The documented swap of the two grids
   * (world.cpp:475-477, world.h:21) would step into the grid of two
   * generations back. One generation turns Row into Bar; stepping Bar into
   * Row leaves cell (0, 1) alive, although the rule kills it and Row is no
   * scratch grid for Bar.
   */
  lemma SwapLeavesStaleCell()
    ensures NextGeneration(Row, false) == Bar && !Scratch(Bar, Row)
    ensures StepInto(Bar, Row, false).At(0, 1) == Alive && NextGeneration(Bar, false).At(0, 1) == Dead
  {
    LineBelowTurnsIntoBar(Row);
    assert Bar.cells[3] == Dead && Row.cells[3] == Alive;
    BarCornerHasTwo();
    assert Bar.At(0, 1) == Bar.cells[3] && Row.At(0, 1) == Row.cells[3];
    StepIntoAt(Bar, Row, false, 0, 1);
    NextGenerationAt(Bar, false, 0, 1);
  }

  /** One generation turns Row into Bar. */
  lemma LineBelowTurnsIntoBar(b: Board)
    requires LineBelow(b)
    ensures NextGeneration(b, false) == Bar
  {
    forall x: nat, y: nat | x < 3 && y < 2
      ensures NextGeneration(b, false).At(x, y) == Bar.At(x, y)
    {
      LineBelowNext(b, x, y);
      assert Bar.At(x, y) == Bar.cells[x + 3 * y];
    }
    Extensionality(NextGeneration(b, false), Bar);
  }

  /** A board with the dimensions and cells of Row. */
  ghost predicate LineBelow(b: Board) {
    b.width == 3 && b.height == 2 && b.cells == [Dead, Dead, Dead, Alive, Alive, Alive]
  }

  /** A cell of Row lives on exactly when it is in the middle column. */
  lemma LineBelowNext(b: Board, x: nat, y: nat)
    requires LineBelow(b) && x < 3 && y < 2
    ensures NextGeneration(b, false).At(x, y) == if x == 1 then Alive else Dead
  {
    NeighboursReference(b, x, y, false);
    LineBelowLiveAt(b, x - 1, y - 1); LineBelowLiveAt(b, x, y - 1); LineBelowLiveAt(b, x + 1, y - 1);
    LineBelowLiveAt(b, x - 1, y); LineBelowLiveAt(b, x + 1, y);
    LineBelowLiveAt(b, x - 1, y + 1); LineBelowLiveAt(b, x, y + 1); LineBelowLiveAt(b, x + 1, y + 1);
    assert b.At(x, y) == b.cells[x + 3 * y];
    NextGenerationAt(b, false, x, y);
  }

  /** Row is alive exactly on its second line. */
  lemma LineBelowLiveAt(b: Board, i: int, j: int)
    requires LineBelow(b)
    ensures LiveAt(b, i, j, false) == if 0 <= i < 3 && j == 1 then 1 else 0
  {
    if b.InBounds(i, j) {
      assert b.At(i, j) == b.cells[i + 3 * j];
    }
  }

  lemma BarCornerHasTwo()
    ensures Neighbours(Bar, 0, 1, false) == 2
  {
    BarLiveAt(-1, 0); BarLiveAt(0, 0); BarLiveAt(1, 0);
    BarLiveAt(-1, 1); BarLiveAt(1, 1);
    BarLiveAt(-1, 2); BarLiveAt(0, 2); BarLiveAt(1, 2);
    NeighboursReference(Bar, 0, 1, false);
  }

  /** Bar is alive exactly in its middle column. */
  lemma BarLiveAt(i: int, j: int)
    ensures LiveAt(Bar, i, j, false) == if i == 1 && 0 <= j < 2 then 1 else 0
  {
    if Bar.InBounds(i, j) {
      assert Bar.At(i, j) == Bar.cells[i + 3 * j];
    }
  }
}

=== FILE: resizing.dfy ===
/**
 * Grid::resize as grid.cpp:359-436 writes it, kept apart from the
 * documented behaviour that Grids.Grid.Resize implements: the branch
 * dispatch on the old and new sizes, the counter-driven copy loops of the
 * three rebuilding branches, and the erase loop of the branch that shrinks
 * both dimensions.
 */
module GridResize {
  import opened Boards

  datatype Option<T> = None | Some(value: T)

  /** The branches of resize (grid.cpp:367-435). */
  datatype Branch = Narrower | Shorter | Larger | Smaller | Same | NoBranch

  /** Which branch resize takes from an ow × oh grid to a w × h one (grid.cpp:367, 386, 405, 424, 433). */
  function Dispatch(ow: nat, oh: nat, w: nat, h: nat): Branch {
    if h >= oh && w < ow then Narrower
    else if w >= ow && h < oh then Shorter
    else if h > oh && w > ow then Larger
    else if h < oh && w < ow then Smaller
    else if h == oh && w == ow then Same
    else NoBranch
  }

  /**
   * No branch fires exactly when the grid grows in one dimension and keeps
   * the other; resize then changes width and height but not the cells.
   */
  lemma NoBranchCases(ow: nat, oh: nat, w: nat, h: nat)
    ensures Dispatch(ow, oh, w, h) == NoBranch <==> (w > ow && h == oh) || (w == ow && h > oh)
  {
  }

  /** In that case the cells left behind no longer number width × height. */
  lemma NoBranchBreaksSize(ow: nat, oh: nat, w: nat, h: nat)
    requires ow >= 1 && oh >= 1 && Dispatch(ow, oh, w, h) == NoBranch
    ensures ow * oh < w * h
  {
    if w > ow {
      MulMono(oh, ow, w - 1);
      assert oh * w == oh * (w - 1) + oh;
    } else {
      MulMono(ow, oh, h - 1);
      assert ow * h == ow * (h - 1) + ow;
    }
  }

  /**
   * The erase loop of the shrinking branch from step t on: it visits the old
   * coordinates (t % ow, t / ow) in row-major order and erases the element
   * at x + w * y, an offset in the new width, from the vector as it stands
   * (grid.cpp:425-431). None when that offset is past the end of the vector.
   */
  function EraseFrom(cells: seq<Cell>, ow: nat, total: nat, w: nat, h: nat, t: nat): Option<seq<Cell>>
    requires ow > 0
    decreases total - t
  {
    if t >= total then Some(cells)
    else
      var x, y := t % ow, t / ow;
      if x >= w || y >= h then
        var i := x + w * y;
        if i < |cells| then EraseFrom(cells[..i] + cells[i + 1..], ow, total, w, h, t + 1) else None
      else EraseFrom(cells, ow, total, w, h, t + 1)
  }

  /** The shrinking branch of resize as written, on a board with at least one column. */
  function ShrinkAsWritten(b: Board, w: nat, h: nat): Option<seq<Cell>>
    requires b.width > 0
  {
    EraseFrom(b.cells, b.width, b.width * b.height, w, h, 0)
  }

  /** The state of a copy loop after some cells: the cells pushed and the old coordinates (cx, cy) it has reached. */
  datatype Copy = Copy(cells: seq<Cell>, cx: nat, cy: nat)

  /**
   * The inner loop of a rebuilding branch from column x of the new row on
   * (grid.cpp:373-382, 392-401, 411-420): push old cell (cx, cy) and step cx
   * while (cx, cy) lies inside the old grid, otherwise push a dead cell;
   * then start the next old row. The narrowing branch starts it when cx
   * reaches the new width (grid.cpp:379), the other two at the last column
   * of the new row (grid.cpp:398, 417).
   */
  function CopyRow(b: Board, w: nat, narrowing: bool, x: nat, cx: nat, cy: nat): (r: Copy)
    requires b.Valid()
    ensures |r.cells| == if x < w then w - x else 0
    decreases w - x
  {
    if x >= w then Copy([], cx, cy)
    else
      var inside := cx < b.width && cy < b.height;
      var cell := if inside then b.At(cx, cy) else Dead;
      var cx' := if inside then cx + 1 else cx;
      var rest := if (if narrowing then cx' == w else x == w - 1)
                  then CopyRow(b, w, narrowing, x + 1, 0, cy + 1)
                  else CopyRow(b, w, narrowing, x + 1, cx', cy);
      Copy([cell] + rest.cells, rest.cx, rest.cy)
  }

  /** The outer loop of a rebuilding branch from new row y on (grid.cpp:372, 391, 410). */
  function CopyRows(b: Board, w: nat, h: nat, narrowing: bool, y: nat, cx: nat, cy: nat): seq<Cell>
    requires b.Valid()
    decreases h - y
  {
    if y >= h then []
    else
      var r := CopyRow(b, w, narrowing, 0, cx, cy);
      r.cells + CopyRows(b, w, h, narrowing, y + 1, r.cx, r.cy)
  }

  /**
   * resize as written (grid.cpp:359-436). The three rebuilding branches run
   * their copy loops from (cx, cy) = (0, 0), the branch for an unchanged size
   * leaves the grid alone, the shrinking branch runs its erase loop (None
   * when that loop erases past the end), and when no branch fires only the
   * width and height change.
   */
  function ResizeAsWritten(b: Board, w: nat, h: nat): (r: Option<Board>)
    requires b.Valid()
    ensures r.Some? ==> r.value.width == w && r.value.height == h
    ensures r.None? ==> Dispatch(b.width, b.height, w, h) == Smaller
  {
    match Dispatch(b.width, b.height, w, h)
    case Narrower => Some(Board(w, h, CopyRows(b, w, h, true, 0, 0, 0)))
    case Shorter => Some(Board(w, h, CopyRows(b, w, h, false, 0, 0, 0)))
    case Larger => Some(Board(w, h, CopyRows(b, w, h, false, 0, 0, 0)))
    case Same => Some(b)
    case NoBranch => Some(Board(w, h, b.cells))
    case Smaller =>
      match ShrinkAsWritten(b, w, h)
      case None => None
      case Some(cells) => Some(Board(w, h, cells))
  }

  /** The cell the documented resize puts at (x, y). */
  function Kept(b: Board, x: nat, y: nat): Cell
    requires b.Valid()
  {
    if x < b.width && y < b.height then b.At(x, y) else Dead
  }

  /**
   * Where the copy counters stand at column x of new row y: on a row the old
   * grid has, cy is y and cx is x capped at the old width; past the old rows,
   * cy has left the old grid and cx stays 0.
   */
  ghost predicate InRow(b: Board, y: nat, x: nat, cx: nat, cy: nat) {
    (y < b.height ==> cy == y && cx == (if x < b.width then x else b.width))
    && (y >= b.height ==> cy >= b.height && cx == 0)
  }

  /**
   * The narrowing branch's reset test fits a new width below the old one, the
   * other one a new width at least the old one. Under either, a row of the
   * copy loop pushes exactly the row of the documented resize and leaves the
   * counters at the start of the next row.
   */
  lemma {:induction false} CopyRowKeeps(b: Board, w: nat, narrowing: bool, y: nat, x: nat, cx: nat, cy: nat)
    requires b.Valid() && x < w && (if narrowing then w < b.width else b.width <= w)
    requires InRow(b, y, x, cx, cy)
    ensures var r := CopyRow(b, w, narrowing, x, cx, cy);
            (forall i :: 0 <= i < w - x ==> r.cells[i] == Kept(b, x + i, y)) && InRow(b, y + 1, 0, r.cx, r.cy)
    decreases w - x
  {
    var r := CopyRow(b, w, narrowing, x, cx, cy);
    var inside := cx < b.width && cy < b.height;
    var cx' := if inside then cx + 1 else cx;
    assert r.cells[0] == Kept(b, x, y);
    if x + 1 < w {
      assert !(if narrowing then cx' == w else x == w - 1);
      CopyRowKeeps(b, w, narrowing, y, x + 1, cx', cy);
      assert r.cells == [r.cells[0]] + CopyRow(b, w, narrowing, x + 1, cx', cy).cells;
    }
  }

  /** From the start of new row y, the copy loop pushes the rest of the documented resize. */
  lemma {:induction false} CopyRowsKeep(b: Board, w: nat, h: nat, narrowing: bool, y: nat, cx: nat, cy: nat)
    requires b.Valid() && w > 0 && y <= h && (if narrowing then w < b.width else b.width <= w)
    requires InRow(b, y, 0, cx, cy)
    ensures w * y <= w * h
    ensures CopyRows(b, w, h, narrowing, y, cx, cy) == b.Resized(w, h).cells[w * y..]
    decreases h - y
  {
    MulMono(w, y, h);
    var all := b.Resized(w, h).cells;
    if y < h {
      var r := CopyRow(b, w, narrowing, 0, cx, cy);
      CopyRowKeeps(b, w, narrowing, y, 0, cx, cy);
      CopyRowsKeep(b, w, h, narrowing, y + 1, r.cx, r.cy);
      RowEnd(w, y, h);
      ResizedRow(b, w, h, y);
      Glue(all, w * y, w, r.cells, CopyRows(b, w, h, narrowing, y + 1, r.cx, r.cy));
    }
  }

  /** A row that matches the slice at k, followed by the rest from k + w, is the suffix from k. */
  lemma Glue(all: seq<Cell>, k: nat, w: nat, row: seq<Cell>, rest: seq<Cell>)
    requires k + w <= |all| && |row| == w
    requires forall i :: 0 <= i < w ==> row[i] == all[k + i]
    requires rest == all[k + w..]
    ensures row + rest == all[k..]
  {
    assert row == all[k..k + w];
    assert all[k..] == all[k..k + w] + all[k + w..];
  }

  /** Row y of the documented resize, as a slice of its cells. */
  lemma ResizedRow(b: Board, w: nat, h: nat, y: nat)
    requires b.Valid() && y < h
    ensures w * y + w <= |b.Resized(w, h).cells|
    ensures forall i :: 0 <= i < w ==> b.Resized(w, h).cells[w * y + i] == Kept(b, i, y)
  {
    RowEnd(w, y, h);
    forall i | 0 <= i < w
      ensures b.Resized(w, h).cells[w * y + i] == Kept(b, i, y)
    {
      ResizedAt(b, w, h, i, y);
      assert b.Resized(w, h).At(i, y) == b.Resized(w, h).cells[i + w * y];
    }
  }

  /** With no columns every row of the copy loop is empty. */
  lemma {:induction false} CopyRowsNoColumns(b: Board, h: nat, narrowing: bool, y: nat, cx: nat, cy: nat)
    requires b.Valid()
    ensures CopyRows(b, 0, h, narrowing, y, cx, cy) == []
    decreases h - y
  {
    if y < h {
      CopyRowsNoColumns(b, h, narrowing, y + 1, cx, cy);
    }
  }

  /**
   * In the three rebuilding branches, with their two reset tests, and when the
   * size is unchanged, resize as written is the documented resize.
   */
  lemma CopyingBranchesResize(b: Board, w: nat, h: nat)
    requires b.Valid() && Dispatch(b.width, b.height, w, h) in {Narrower, Shorter, Larger, Same}
    ensures ResizeAsWritten(b, w, h) == Some(b.Resized(w, h))
  {
    var branch := Dispatch(b.width, b.height, w, h);
    if branch == Same {
      ResizeSameSize(b);
    } else {
      var narrowing := branch == Narrower;
      if w == 0 {
        CopyRowsNoColumns(b, h, narrowing, 0, 0, 0);
      } else {
        CopyRowsKeep(b, w, h, narrowing, 0, 0, 0);
      }
      assert b.Resized(w, h).cells[w * 0..] == b.Resized(w, h).cells;
    }
  }

  /**
   * Growing a non-empty grid in one dimension only keeps the old cells under
   * the new dimensions, a grid whose vector is too short for its size.
   */
  lemma NoBranchLeavesCells(b: Board, w: nat, h: nat)
    requires b.Valid() && b.width >= 1 && b.height >= 1
    requires (w > b.width && h == b.height) || (w == b.width && h > b.height)
    ensures ResizeAsWritten(b, w, h) == Some(Board(w, h, b.cells))
    ensures !ResizeAsWritten(b, w, h).value.Valid()
  {
    NoBranchCases(b.width, b.height, w, h);
    NoBranchBreaksSize(b.width, b.height, w, h);
  }

  /** Widening a 2 × 2 grid to 3 × 2 as written leaves four cells for six coordinates. */
  lemma WidenKeepsFourCells()
    ensures var r := ResizeAsWritten(Board(2, 2, [Alive, Dead, Dead, Alive]), 3, 2);
            r == Some(Board(3, 2, [Alive, Dead, Dead, Alive])) && !r.value.Valid()
  {
    NoBranchLeavesCells(Board(2, 2, [Alive, Dead, Dead, Alive]), 3, 2);
  }

  /**
   * Shrinking a 2 × 2 grid to 1 × 1: the loop erases at offsets 1, 1 and
   * then 2 of a vector that by then holds two cells.
   */
  lemma ShrinkRunsPastEnd()
    ensures var b := Board(2, 2, [Alive, Dead, Dead, Alive]);
            Dispatch(2, 2, 1, 1) == Smaller && ShrinkAsWritten(b, 1, 1) == None
  {
    var cells := [Alive, Dead, Dead, Alive];
    assert EraseFrom(cells, 2, 4, 1, 1, 0) == EraseFrom(cells, 2, 4, 1, 1, 1);
    assert EraseFrom(cells, 2, 4, 1, 1, 1) == EraseFrom([Alive, Dead, Alive], 2, 4, 1, 1, 2);
    assert EraseFrom([Alive, Dead, Alive], 2, 4, 1, 1, 2) == EraseFrom([Alive, Alive], 2, 4, 1, 1, 3);
    assert EraseFrom([Alive, Alive], 2, 4, 1, 1, 3) == None;
  }

  /** So resize as written has no result for that shrink. */
  lemma ShrinkHasNoResult()
    ensures ResizeAsWritten(Board(2, 2, [Alive, Dead, Dead, Alive]), 1, 1) == None
  {
    ShrinkRunsPastEnd();
  }
}

=== FILE: world.dfy ===
/**
 * The World class of world.cpp: the current state grid and a scratch grid
 * of the same size that each step writes the next generation into before
 * copying it back. Every method is proved against the functions of module Life.
 */
module Worlds {
  import opened Errors
  import opened Boards
  import opened Grids
  import opened Life

  class World {
    var width: nat
    var height: nat
    var current: Grid
    var next: Grid

    /**
     * Two distinct grids of the world's size (world.h:17-21), the scratch
     * grid dead wherever the current one is, which is what makes the cells
     * step leaves unwritten harmless.
     */
    ghost predicate Valid()
      reads this, current, next
    {
      current != next && current.Valid() && next.Valid()
      && current.width == width && current.height == height
      && Scratch(current.Value(), next.Value())
    }

    /** World(): an empty 0 × 0 world (world.cpp:40-43). */
    constructor Empty()
      ensures Valid() && width == 0 && height == 0
      ensures current.Value() == Board(0, 0, []) && next.Value() == Board(0, 0, [])
    {
      width, height := 0, 0;
      current := new Grid.Empty();
      next := new Grid.Empty();
    }

    /** World(square_size): a size × size world of dead cells (world.cpp:64-78). */
    constructor Square(size: nat)
      ensures Valid() && width == size && height == size
      ensures current.Value() == Blank(size, size) && next.Value() == Blank(size, size)
    {
      width, height := size, size;
      current := new Grid(size, size);
      next := new Grid(size, size);
      BlankIsScratch(Blank(size, size));
    }

    /** World(width, height): a w × h world of dead cells (world.cpp:96-110). */
    constructor (w: nat, h: nat)
      ensures Valid() && width == w && height == h
      ensures current.Value() == Blank(w, h) && next.Value() == Blank(w, h)
    {
      width, height := w, h;
      current := new Grid(w, h);
      next := new Grid(w, h);
      BlankIsScratch(Blank(w, h));
    }

    /**
     * World(initial_state): a world whose current grid holds a cell-by-cell
     * copy of initial and whose scratch grid is dead (world.cpp:132-146).
     */
    constructor FromGrid(initial: Grid)
      requires initial.Valid()
      ensures Valid() && width == initial.width && height == initial.height
      ensures current.Value() == initial.Value() && next.Value() == Blank(width, height)
      ensures current != initial && next != initial
    {
      var w, h := initial.width, initial.height;
      var c := new Grid(w, h);
      var y := 0;
      ghost var done: nat := 0;
      while y < h
        invariant y <= h && done == w * y
        invariant c.Valid() && c.width == w && c.height == h
        invariant Copied(c.cells, initial.cells, done)
      {
        var x := 0;
        while x < w
          invariant x <= w && done == w * y + x
          invariant c.Valid() && c.width == w && c.height == h
          invariant Copied(c.cells, initial.cells, done)
        {
          assert c.Value().Offset(x, y) == done && initial.Value().Offset(x, y) == done;
          ghost var before := c.cells;
          var v := initial.Get(x, y);
          var _ := c.Set(x, y, v.value);
          CopiedStep(before, c.cells, initial.cells, done);
          x, done := x + 1, done + 1;
        }
        MulSucc(w, y);
        y := y + 1;
      }
      CopiedAll(c.cells, initial.cells);
      width, height := w, h;
      current := c;
      next := new Grid(w, h);
      BlankIsScratch(c.Value());
    }

    /** get_total_cells: width × height (world.cpp:228-230). */
    function TotalCells(): (n: nat)
      reads this, current, next
      requires Valid()
      ensures n == |current.cells|
    {
      height * width
    }

    /** get_alive_cells: the alive cells of the current grid, visited row by row (world.cpp:256-268). */
    method AliveCells() returns (count: nat)
      requires Valid()
      ensures count == Count(current.cells, Alive)
      ensures count <= TotalCells()
    {
      count := CountState(Alive);
    }

    /** get_dead_cells: the dead cells of the current grid, visited row by row (world.cpp:294-306). */
    method DeadCells() returns (count: nat)
      requires Valid()
      ensures count == Count(current.cells, Dead)
      ensures count == TotalCells() - Count(current.cells, Alive)
    {
      count := CountState(Dead);
      CountsPartition(current.cells);
    }

    method CountState(state: Cell) returns (count: nat)
      requires current.Valid()
      ensures count == Count(current.cells, state)
    {
      var g, w, h := current, current.width, current.height;
      count := 0;
      ghost var done: nat := 0;
      var y := 0;
      while y < h
        invariant y <= h && done == w * y && done <= |g.cells|
        invariant count == Count(g.cells[..done], state)
      {
        RowEnd(w, y, h);
        var x := 0;
        while x < w
          invariant x <= w && done == w * y + x && done + (w - x) <= |g.cells|
          invariant count == Count(g.cells[..done], state)
        {
          assert g.Get(x, y) == Ok(g.cells[done]) by {
            assert g.Value().Offset(x, y) == done;
          }
          CountPrefix(g.cells, done, state);
          if g.Get(x, y) == Ok(state) {
            count := count + 1;
          }
          x, done := x + 1, done + 1;
        }
        y := y + 1;
      }
      assert g.cells[..done] == g.cells;
    }

    /** get_state: a copy of the current grid (world.h:44). */
    method State() returns (g: Grid)
      requires Valid()
      ensures fresh(g) && g.Valid() && g.Value() == current.Value()
    {
      g := new Grid(width, height);
      g.cells := current.cells;
    }

    /**
     * resize(new_width, new_height): resizes the current grid, keeping the
     * overlap and killing every new cell, and gives the scratch grid the new
     * size as well (world.cpp:385-389 with world.h:17-21; see ResizeAsWritten).
     */
    method Resize(w: nat, h: nat)
      requires Valid()
      modifies this, current
      ensures Valid() && width == w && height == h && current == old(current)
      ensures current.Value() == old(current.Value()).Resized(w, h)
      ensures fresh(next) && next.Value() == Blank(w, h)
    {
      current.Resize(w, h);
      next := new Grid(w, h);
      width, height := w, h;
      BlankIsScratch(current.Value());
    }

    /** resize(square_size): the same as resize(square_size, square_size) (world.cpp:357-361). */
    method ResizeSquare(size: nat)
      requires Valid()
      modifies this, current
      ensures Valid() && width == size && height == size && current == old(current)
      ensures current.Value() == old(current.Value()).Resized(size, size)
      ensures fresh(next) && next.Value() == Blank(size, size)
    {
      Resize(size, size);
    }

    /**
     * resize as world.cpp:385-389 writes it: only the current grid is
     * resized, so after any change of size the scratch grid keeps the old
     * one and the world no longer holds two grids of its size.
     */
    method ResizeAsWritten(w: nat, h: nat)
      requires Valid()
      modifies this, current
      ensures width == w && height == h && current == old(current) && next == old(next)
      ensures current.Value() == old(current.Value()).Resized(w, h)
      ensures next.width == old(width) && next.height == old(height)
      ensures (w != old(width) || h != old(height)) ==> !Valid()
    {
      width, height := w, h;
      current.Resize(w, h);
    }

    /**
     * count_neighbours(x, y, toroidal): visits the 3 × 3 block around (x, y)
     * row by row and counts its alive cells other than the centre, wrapping
     * or skipping off-grid positions (world.cpp:423-468).
     */
    method CountNeighbours(x: nat, y: nat, toroidal: bool) returns (counter: nat)
      requires current.Valid() && current.width == width && current.height == height
      requires x < width && y < height
      ensures counter == Neighbours(current.Value(), x, y, toroidal)
    {
      ghost var b := current.Value();
      counter := 0;
      var j: int := y - 1;
      while j <= y + 1
        invariant y - 1 <= j <= y + 2
        invariant counter == BlockSum(b, x, y, j - y + 1, toroidal)
      {
        var i: int := x - 1;
        while i <= x + 1
          invariant x - 1 <= i <= x + 2
          invariant counter == BlockSum(b, x, y, j - y + 1, toroidal) + RowSum(b, x, y, j, i - x + 1, toroidal)
        {
          var add := NeighbourAt(x, y, i, j, toroidal);
          counter := counter + add;
          i := i + 1;
        }
        j := j + 1;
      }
    }

    /**
     * The body of count_neighbours' inner loop for position (i, j): 0 for
     * the centre; on a torus an off-grid position is moved one width or
     * height back onto the grid; otherwise an off-grid position adds
     * nothing (world.cpp:429-463).
     */
    method NeighbourAt(x: nat, y: nat, i: int, j: int, toroidal: bool) returns (add: nat)
      requires current.Valid() && current.width == width && current.height == height
      requires x < width && y < height && x - 1 <= i <= x + 1 && y - 1 <= j <= y + 1
      ensures add == Contribution(current.Value(), x, y, i, j, toroidal)
    {
      add := 0;
      if i == x && j == y {
      } else if toroidal {
        if i >= width || j >= height || i < 0 || j < 0 {
          var a, c := i, j;
          if i < 0 {
            a := width + i;
          } else if i >= width {
            a := i - width;
          }
          if j < 0 {
            c := height + j;
          } else if j >= height {
            c := j - height;
          }
          assert a == Wrap(i, width) && c == Wrap(j, height);
          if current.Get(a, c) == Ok(Alive) {
            add := 1;
          }
        } else if current.Get(i, j) == Ok(Alive) {
          add := 1;
        }
      } else {
        if i >= width || j >= height || i < 0 || j < 0 {
        } else if current.Get(i, j) == Ok(Alive) {
          add := 1;
        }
      }
    }

    /**
     * step(toroidal): writes the next generation into the scratch grid cell
     * by cell, then copies the scratch grid into the current one
     * (world.cpp:490-510). Both grids end up holding the next generation.
     */
    method Step(toroidal: bool)
      requires Valid()
      modifies current, next
      ensures Valid()
      ensures current.Value() == NextGeneration(old(current.Value()), toroidal)
      ensures next.Value() == current.Value()
    {
      ghost var cur, scratch := current.Value(), next.Value();
      WriteNext(toroidal);
      StepIntoIsNextGeneration(cur, scratch, toroidal);
      current.cells := next.cells;
    }

    /**
     * The nested loops of step: every cell of the scratch grid is visited
     * row by row and written from the current grid (world.cpp:494-507).
     */
    method WriteNext(toroidal: bool)
      requires current.Valid() && next.Valid() && current != next
      requires current.width == width && current.height == height && next.width == width && next.height == height
      modifies next
      ensures next.Valid() && next.width == width && next.height == height
      ensures next.Value() == StepInto(current.Value(), old(next.Value()), toroidal)
    {
      ghost var cur, scratch := current.Value(), next.Value();
      ghost var target := StepInto(cur, scratch, toroidal);
      var y := 0;
      while y < height
        invariant y <= height
        invariant next.Valid() && next.width == width && next.height == height
        invariant Written(next.cells, target.cells, scratch.cells, width * y)
        modifies next
      {
        WriteRow(toroidal, y, cur, scratch, target);
        MulSucc(width, y);
        y := y + 1;
      }
      WrittenAll(next.cells, target.cells, scratch.cells);
    }

    /** One pass of step's inner loop: row y of the scratch grid (world.cpp:495-506). */
    method WriteRow(toroidal: bool, y: nat, ghost cur: Board, ghost scratch: Board, ghost target: Board)
      requires current.Valid() && next.Valid() && current != next
      requires current.width == width && current.height == height && next.width == width && next.height == height
      requires cur == current.Value() && scratch.Valid() && scratch.width == width && scratch.height == height
      requires target == StepInto(cur, scratch, toroidal)
      requires y < height
      requires Written(next.cells, target.cells, scratch.cells, width * y)
      modifies next
      ensures next.Valid() && next.width == width && next.height == height
      ensures Written(next.cells, target.cells, scratch.cells, width * y + width)
    {
      ghost var done: nat := width * y;
      var x := 0;
      while x < width
        invariant x <= width && done == width * y + x
        invariant next.Valid() && next.width == width && next.height == height
        invariant Written(next.cells, target.cells, scratch.cells, done)
        modifies next
      {
        ghost var before := next.Value();
        UpdateCell(x, y, toroidal);
        WrittenStep(cur, scratch, toroidal, before, next.cells, x, y);
        x, done := x + 1, done + 1;
      }
    }

    /**
     * The body of step's loops for cell (x, y): counts its neighbours and
     * writes alive, writes dead, or writes nothing (world.cpp:494-505).
     */
    method UpdateCell(x: nat, y: nat, toroidal: bool)
      requires current.Valid() && next.Valid() && current != next
      requires current.width == width && current.height == height && next.width == width && next.height == height
      requires x < width && y < height
      modifies next
      ensures next.Valid() && next.width == width && next.height == height
      ensures x + width * y < |next.cells|
      ensures next.cells == old(next.cells)[x + width * y :=
        StepCell(current.Value().At(x, y), Neighbours(current.Value(), x, y, toroidal), old(next.Value()).At(x, y))]
    {
      ghost var stale := next.Value();
      assert stale.Offset(x, y) == x + width * y;
      var aliveNeighbours := CountNeighbours(x, y, toroidal);
      if aliveNeighbours == 2 || aliveNeighbours == 3 {
        if current.Get(x, y) == Ok(Alive) {
          var _ := next.Set(x, y, Alive);
        } else if current.Get(x, y) == Ok(Dead) && aliveNeighbours == 3 {
          var _ := next.Set(x, y, Alive);
        } else {
          assert stale.cells[x + width * y := stale.At(x, y)] == stale.cells;
        }
      } else {
        var _ := next.Set(x, y, Dead);
      }
    }

    /**
     * advance(steps, toroidal): steps times step(toroidal); no step at all
     * when steps is zero or negative (world.cpp:526-531).
     */
    method Advance(steps: int, toroidal: bool)
      requires Valid()
      modifies current, next
      ensures Valid()
      ensures current.Value() == Generations(old(current.Value()), if steps < 0 then 0 else steps, toroidal)
    {
      ghost var start := current.Value();
      var i := 0;
      while i < steps
        invariant 0 <= i <= if steps < 0 then 0 else steps
        invariant Valid()
        invariant current.Value() == Generations(start, i, toroidal)
      {
        Step(toroidal);
        assert Generations(start, i + 1, toroidal) == NextGeneration(Generations(start, i, toroidal), toroidal);
        i := i + 1;
      }
      assert i == if steps < 0 then 0 else steps;
    }
  }

  /**
   * cells agrees with target below offset k and still holds the scratch
   * values from k on: the state of the scratch grid part way through step.
   */
  ghost predicate Written(cells: seq<Cell>, target: seq<Cell>, scratch: seq<Cell>, k: nat) {
    |cells| == |target| == |scratch| && k <= |cells|
    && (forall i :: 0 <= i < k ==> cells[i] == target[i])
    && (forall i :: k <= i < |cells| ==> cells[i] == scratch[i])
  }

  /**
   * Writing cell (x, y) as step's loop body does moves the boundary of the
   * written prefix one offset on.
   */
  lemma WrittenStep(cur: Board, scratch: Board, toroidal: bool, before: Board, after: seq<Cell>, x: nat, y: nat)
    requires cur.Valid() && scratch.Valid() && scratch.width == cur.width && scratch.height == cur.height
    requires x < cur.width && y < cur.height
    requires before.Valid() && before.width == cur.width && before.height == cur.height
    requires x + cur.width * y < |before.cells|
    requires Written(before.cells, StepInto(cur, scratch, toroidal).cells, scratch.cells, x + cur.width * y)
    requires after == before.cells[x + cur.width * y :=
      StepCell(cur.At(x, y), Neighbours(cur, x, y, toroidal), before.At(x, y))]
    ensures Written(after, StepInto(cur, scratch, toroidal).cells, scratch.cells, x + cur.width * y + 1)
  {
    var target := StepInto(cur, scratch, toroidal);
    var k := x + cur.width * y;
    assert target.Offset(x, y) == k && scratch.Offset(x, y) == k && before.Offset(x, y) == k;
    StepIntoAt(cur, scratch, toroidal, x, y);
    assert after == before.cells[k := target.cells[k]];
  }

  /** The first k cells are those of src. */
  ghost predicate Copied(cells: seq<Cell>, src: seq<Cell>, k: nat) {
    |cells| == |src| && k <= |cells| && forall i :: 0 <= i < k ==> cells[i] == src[i]
  }

  lemma CopiedStep(before: seq<Cell>, after: seq<Cell>, src: seq<Cell>, k: nat)
    requires Copied(before, src, k) && k < |before| && after == before[k := src[k]]
    ensures Copied(after, src, k + 1)
  {
  }

  lemma CopiedAll(cells: seq<Cell>, src: seq<Cell>)
    requires Copied(cells, src, |cells|)
    ensures cells == src
  {
  }

  /** Once every offset is written the cells are the target. */
  lemma WrittenAll(cells: seq<Cell>, target: seq<Cell>, scratch: seq<Cell>)
    requires Written(cells, target, scratch, |cells|)
    ensures cells == target
  {
  }
}

=== FILE: zoo.dfy ===
/**
 * The Zoo of zoo.cpp: three seed patterns built by set calls, and the
 * loops that save and load grids in the binary and ascii formats, each
 * proved against the format functions of module Codecs. The file handling
 * itself is not modelled: a saved file is returned as its parts and a
 * loaded file is passed in as its parts.
 */
module Zoo {
  import opened Errors
  import opened Boards
  import opened Grids
  import opened Codecs

  // ---------------------------------------------------------------------------
  // Patterns (zoo.cpp:49-123)
  // ---------------------------------------------------------------------------

  const GliderCells: set<(nat, nat)> := {(1, 0), (2, 1), (0, 2), (1, 2), (2, 2)}
  const RPentominoCells: set<(nat, nat)> := {(1, 0), (2, 0), (0, 1), (1, 1), (1, 2)}
  const SpaceshipCells: set<(nat, nat)> :=
    {(1, 0), (4, 0), (0, 1), (0, 2), (4, 2), (0, 3), (1, 3), (2, 3), (3, 3)}

  /** Board b is w × h and alive exactly at the coordinates in alive. */
  ghost predicate Shows(b: Board, w: nat, h: nat, alive: set<(nat, nat)>) {
    b.Valid() && b.width == w && b.height == h
    && forall x: nat, y: nat :: x < w && y < h ==> (b.At(x, y) == Alive <==> (x, y) in alive)
  }

  /** glider(): a 3 × 3 grid alive exactly at the five glider cells (zoo.cpp:49-57). */
  method Glider() returns (g: Grid)
    ensures fresh(g) && g.Valid() && Shows(g.Value(), 3, 3, GliderCells)
  {
    g := new Grid.Square(3);
    var outcome := g.Set(1, 0, Alive);
    outcome := g.Set(2, 1, Alive);
    outcome := g.Set(0, 2, Alive);
    outcome := g.Set(1, 2, Alive);
    outcome := g.Set(2, 2, Alive);
    GliderShape(g.Value());
  }

  lemma GliderShape(b: Board)
    requires b == Blank(3, 3).Put(1, 0, Alive).Put(2, 1, Alive).Put(0, 2, Alive).Put(1, 2, Alive).Put(2, 2, Alive)
    ensures Shows(b, 3, 3, GliderCells)
  {
    assert b.cells == [Dead, Alive, Dead,
                       Dead, Dead, Alive,
                       Alive, Alive, Alive];
    forall x: nat, y: nat | x < 3 && y < 3
      ensures b.At(x, y) == Alive <==> (x, y) in GliderCells
    {
      assert b.At(x, y) == b.cells[x + 3 * y];
      if y == 0 {
      } else if y == 1 {
      } else {
      }
    }
  }

  /** r_pentomino(): a 3 × 3 grid alive exactly at the five R-pentomino cells (zoo.cpp:79-87). */
  method RPentomino() returns (g: Grid)
    ensures fresh(g) && g.Valid() && Shows(g.Value(), 3, 3, RPentominoCells)
  {
    g := new Grid.Square(3);
    var outcome := g.Set(1, 0, Alive);
    outcome := g.Set(2, 0, Alive);
    outcome := g.Set(0, 1, Alive);
    outcome := g.Set(1, 1, Alive);
    outcome := g.Set(1, 2, Alive);
    RPentominoShape(g.Value());
  }

  lemma RPentominoShape(b: Board)
    requires b == Blank(3, 3).Put(1, 0, Alive).Put(2, 0, Alive).Put(0, 1, Alive).Put(1, 1, Alive).Put(1, 2, Alive)
    ensures Shows(b, 3, 3, RPentominoCells)
  {
    assert b.cells == [Dead, Alive, Alive,
                       Alive, Alive, Dead,
                       Dead, Alive, Dead];
    forall x: nat, y: nat | x < 3 && y < 3
      ensures b.At(x, y) == Alive <==> (x, y) in RPentominoCells
    {
      assert b.At(x, y) == b.cells[x + 3 * y];
      if y == 0 {
      } else if y == 1 {
      } else {
      }
    }
  }


  /** light_weight_spaceship(): a 5 × 4 grid alive exactly at the nine spaceship cells (zoo.cpp:111-123). */
  method LightWeightSpaceship() returns (g: Grid)
    ensures fresh(g) && g.Valid() && Shows(g.Value(), 5, 4, SpaceshipCells)
  {
    g := new Grid(5, 4);
    var outcome := g.Set(1, 0, Alive);
    outcome := g.Set(4, 0, Alive);
    outcome := g.Set(0, 1, Alive);
    outcome := g.Set(0, 2, Alive);
    outcome := g.Set(4, 2, Alive);
    outcome := g.Set(0, 3, Alive);
    outcome := g.Set(1, 3, Alive);
    outcome := g.Set(2, 3, Alive);
    outcome := g.Set(3, 3, Alive);
    SpaceshipShape(g.Value());
  }

  lemma SpaceshipShape(b: Board)
    requires b == Blank(5, 4).Put(1, 0, Alive).Put(4, 0, Alive).Put(0, 1, Alive)
                  .Put(0, 2, Alive).Put(4, 2, Alive).Put(0, 3, Alive)
                  .Put(1, 3, Alive).Put(2, 3, Alive).Put(3, 3, Alive)
    ensures Shows(b, 5, 4, SpaceshipCells)
  {
    assert b.cells == [Dead, Alive, Dead, Dead, Alive,
                       Alive, Dead, Dead, Dead, Dead,
                       Alive, Dead, Dead, Dead, Alive,
                       Alive, Alive, Alive, Alive, Dead];
    forall x: nat, y: nat | x < 5 && y < 4
      ensures b.At(x, y) == Alive <==> (x, y) in SpaceshipCells
    {
      assert b.At(x, y) == b.cells[x + 5 * y];
      if y == 0 {
      } else if y == 1 {
      } else if y == 2 {
      } else {
      }
    }
  }

  // ---------------------------------------------------------------------------
  // Binary format (zoo.cpp:274-399)
  // ---------------------------------------------------------------------------

  /**
   * save_binary: the grid's width and height, and its cells packed eight to
   * a byte, collected a chunk at a time; a full chunk becomes a byte and the
   * final partial chunk becomes the last byte (zoo.cpp:355-392).
   */
  method SaveBinary(g: Grid) returns (w: nat, h: nat, bytes: seq<byte>)
    requires g.Valid()
    ensures w == g.width && h == g.height
    ensures bytes == Pack(g.cells)
  {
    w, h := g.width, g.height;
    ghost var cells := g.cells;
    ghost var done := 0;
    var chunk: seq<Cell> := [];
    bytes := [];
    var y := 0;
    while y < h
      invariant y <= h && done == w * y
      invariant |chunk| < 8 && ChunkedPrefix(cells, done, chunk, bytes)
    {
      var x := 0;
      while x < w
        invariant x <= w && done == w * y + x
        invariant |chunk| < 8 && ChunkedPrefix(cells, done, chunk, bytes)
      {
        assert g.Value().Offset(x, y) == done;
        LastOffset(w, h, x, y);
        var c := g.Get(x, y);
        chunk, bytes := PushCell(cells, done, chunk, bytes, c.value, x == w - 1 && y == h - 1);
        done := done + 1;
        x := x + 1;
      }
      MulSucc(w, y);
      y := y + 1;
    }
    FinishChunks(cells, chunk, bytes);
  }

  /**
   * One cell of save_binary's loop: the cell joins the open chunk; a full
   * chunk is flushed as a byte and emptied, and at the last cell the partial
   * chunk is flushed too (zoo.cpp:371-390).
   */
  method PushCell(ghost cells: seq<Cell>, ghost done: nat, chunk: seq<Cell>, bytes: seq<byte>, c: Cell, last: bool)
    returns (chunk': seq<Cell>, bytes': seq<byte>)
    requires done < |cells| && c == cells[done] && (last <==> done + 1 == |cells|)
    requires |chunk| < 8 && ChunkedPrefix(cells, done, chunk, bytes)
    ensures |chunk'| < 8 && ChunkedPrefix(cells, done + 1, chunk', bytes')
  {
    chunk', bytes' := chunk, bytes;
    if c == Alive {
      chunk' := chunk' + [Alive];
    } else if c == Dead {
      chunk' := chunk' + [Dead];
    }
    if |chunk'| == 8 {
      ChunkFlushed(cells, done, chunk, bytes);
      bytes' := bytes' + [PackChunk(chunk')];
      chunk' := [];
    } else {
      ChunkExtended(cells, done, chunk, bytes);
      if last {
        bytes' := bytes' + [PackChunk(chunk')];
      }
    }
  }

  /**
   * The loop state of save_binary after done cells: the open chunk holds the
   * cells since the last byte boundary, and bytes holds the packed cells
   * before it, plus the open chunk once every cell is seen.
   */
  ghost predicate ChunkedPrefix(cells: seq<Cell>, done: nat, chunk: seq<Cell>, bytes: seq<byte>) {
    |chunk| <= 8 && |chunk| <= done <= |cells| && (done - |chunk|) % 8 == 0
    && chunk == cells[done - |chunk| .. done]
    && bytes == Pack(cells[..done - |chunk|]) + (if done == |cells| && chunk != [] then [PackChunk(chunk)] else [])
  }

  lemma ChunkGrows(cells: seq<Cell>, done: nat, chunk: seq<Cell>, bytes: seq<byte>)
    requires done < |cells| && |chunk| < 8 && ChunkedPrefix(cells, done, chunk, bytes)
    ensures chunk + [cells[done]] == cells[done - |chunk| .. done + 1]
    ensures bytes == Pack(cells[..done - |chunk|])
  {
  }

  /** A step that fills the open chunk flushes it as a byte and keeps the loop state. */
  lemma ChunkFlushed(cells: seq<Cell>, done: nat, chunk: seq<Cell>, bytes: seq<byte>)
    requires done < |cells| && |chunk| == 7 && ChunkedPrefix(cells, done, chunk, bytes)
    ensures ChunkedPrefix(cells, done + 1, [], bytes + [PackChunk(chunk + [cells[done]])])
  {
    var base, chunk' := done - 7, chunk + [cells[done]];
    ChunkGrows(cells, done, chunk, bytes);
    assert chunk' == cells[base .. base + 8] && bytes == Pack(cells[..base]);
    FullChunk(cells, base, chunk', bytes);
    assert base + 8 == done + 1 && (done + 1) % 8 == 0;
    assert bytes + [PackChunk(chunk')] == Pack(cells[..done + 1]);
  }

  /**
   * A step that leaves the open chunk short keeps the loop state; at the
   * last cell the short chunk is flushed too.
   */
  lemma ChunkExtended(cells: seq<Cell>, done: nat, chunk: seq<Cell>, bytes: seq<byte>)
    requires done < |cells| && |chunk| < 7 && ChunkedPrefix(cells, done, chunk, bytes)
    ensures done + 1 == |cells| ==> ChunkedPrefix(cells, done + 1, chunk + [cells[done]], bytes + [PackChunk(chunk + [cells[done]])])
    ensures done + 1 < |cells| ==> ChunkedPrefix(cells, done + 1, chunk + [cells[done]], bytes)
  {
    ChunkGrows(cells, done, chunk, bytes);
    assert done + 1 - |chunk + [cells[done]]| == done - |chunk|;
  }

  lemma FullChunk(cells: seq<Cell>, base: nat, chunk: seq<Cell>, bytes: seq<byte>)
    requires |chunk| == 8 && base + 8 <= |cells| && base % 8 == 0
    requires chunk == cells[base .. base + 8] && bytes == Pack(cells[..base])
    ensures bytes + [PackChunk(chunk)] == Pack(cells[..base + 8])
  {
    assert cells[..base + 8] == cells[..base] + chunk;
    PackAppend(cells[..base], chunk);
  }

  lemma FinishChunks(cells: seq<Cell>, chunk: seq<Cell>, bytes: seq<byte>)
    requires ChunkedPrefix(cells, |cells|, chunk, bytes)
    ensures bytes == Pack(cells)
  {
    var base := |cells| - |chunk|;
    assert cells == cells[..base] + chunk;
    PackAppend(cells[..base], chunk);
  }

  /**
   * load_binary: the bits of the data bytes, least significant first, then
   * cell i + width * j from bit i + width * j; too few bits is a
   * FormatError (zoo.cpp:286-315).
   */
  method LoadBinary(w: nat, h: nat, data: seq<byte>) returns (r: Result<Grid>)
    ensures r.Ok? <==> w * h <= 8 * |data|
    ensures r.Err? ==> r.error == FormatError
    ensures r.Ok? ==> fresh(r.value) && r.value.Valid() && r.value.width == w && r.value.height == h
    ensures r.Ok? ==> Unpack(data, w * h) == Ok(r.value.cells)
  {
    var bits: seq<bool> := [];
    var m := 0;
    while m < |data|
      invariant m <= |data| && |bits| == 8 * m
      invariant forall k :: 0 <= k < |bits| ==> bits[k] == StreamBit(data, k)
    {
      var c := data[m];
      var i := 0;
      while i < 8
        invariant i <= 8 && |bits| == 8 * m + i
        invariant forall k :: 0 <= k < |bits| ==> bits[k] == StreamBit(data, k)
      {
        assert (8 * m + i) / 8 == m && (8 * m + i) % 8 == i;
        bits := bits + [BitOf(c as nat, i)];
        i := i + 1;
      }
      m := m + 1;
    }
    var g := new Grid(w, h);
    var y := 0;
    ghost var done: nat := 0;
    while y < h
      invariant y <= h && done == w * y && done <= w * h
      invariant g.Valid() && g.width == w && g.height == h
      invariant BitsDecoded(g.cells, bits, done)
    {
      RowEnd(w, y, h);
      var x := 0;
      while x < w
        invariant x <= w && done == w * y + x && done + (w - x) <= w * h
        invariant g.Valid() && g.width == w && g.height == h
        invariant BitsDecoded(g.cells, bits, done)
      {
        var k := x + w * y;
        assert k == done && g.Value().Offset(x, y) == k;
        if k >= |bits| {
          return Err(FormatError);
        }
        ghost var before := g.cells;
        if bits[k] == false {
          var _ := g.Set(x, y, Dead);
        } else if bits[k] == true {
          var _ := g.Set(x, y, Alive);
        }
        BitsDecodedStep(before, g.cells, bits, k);
        x, done := x + 1, done + 1;
      }
      y := y + 1;
    }
    var u := Unpack(data, w * h);
    assert u.Ok? && u.value == g.cells;
    r := Ok(g);
  }

  /** The first k cells are decoded from the first k bits, one bit a cell. */
  ghost predicate BitsDecoded(cells: seq<Cell>, bits: seq<bool>, k: nat) {
    k <= |cells| && k <= |bits| && forall i :: 0 <= i < k ==> cells[i] == if bits[i] then Alive else Dead
  }

  lemma BitsDecodedStep(before: seq<Cell>, after: seq<Cell>, bits: seq<bool>, k: nat)
    requires BitsDecoded(before, bits, k) && k < |before| && k < |bits|
    requires after == before[k := if bits[k] then Alive else Dead]
    ensures BitsDecoded(after, bits, k + 1)
  {
  }

  /** A grid saved with save_binary and read back with load_binary is the same grid. */
  method BinaryRoundTrip(g: Grid) returns (r: Result<Grid>)
    requires g.Valid()
    ensures r.Ok? && r.value.Valid() && r.value.Value() == g.Value()
  {
    var w, h, bytes := SaveBinary(g);
    UnpackPack(g.cells);
    r := LoadBinary(w, h, bytes);
  }

  // ---------------------------------------------------------------------------
  // Ascii format (zoo.cpp:150-249)
  // ---------------------------------------------------------------------------

  /**
   * save_ascii: the header line, then each row's characters and a newline,
   * dead cells written as ' ' (zoo.cpp:233-246; see Findings for '0').
   */
  method SaveAscii(g: Grid) returns (text: string)
    requires g.Valid()
    ensures text == AsciiFile(g.Value(), ' ')
  {
    ghost var b := g.Value();
    text := NatText(g.width) + " " + NatText(g.height) + "\n";
    var y := 0;
    while y < g.height
      invariant y <= g.height
      invariant text == Header(b.width, b.height) + Rows(b, y, ' ')
    {
      var x := 0;
      while x < g.width
        invariant x <= g.width
        invariant text == Header(b.width, b.height) + Rows(b, y, ' ') + AsciiRow(b, y, ' ')[..x]
      {
        assert AsciiRow(b, y, ' ')[..x + 1] == AsciiRow(b, y, ' ')[..x] + [CellChar(b.At(x, y), ' ')];
        var c := g.Get(x, y);
        text := text + [CellChar(c.value, ' ')];
        x := x + 1;
      }
      assert AsciiRow(b, y, ' ')[..x] == AsciiRow(b, y, ' ');
      text := text + "\n";
      y := y + 1;
    }
  }

  /** The characters of body read line by line; the newlines that end the lines are dropped (zoo.cpp:166-176). */
  method LineChars(body: string) returns (chars: string)
    ensures chars == RemoveNewlines(body)
  {
    chars := [];
    var i := 0;
    while i < |body|
      invariant i <= |body|
      invariant chars == RemoveNewlines(body[..i])
    {
      assert body[..i + 1][..i] == body[..i];
      if body[i] != '\n' {
        chars := chars + [body[i]];
      }
      i := i + 1;
    }
    assert body[..i] == body;
  }

  /**
   * load_ascii: a width or height below 1 is InvalidDimension; otherwise the
   * characters of body's lines fill the grid in row-major order, ' ' dead
   * and '#' alive, and a missing or other character is a FormatError
   * (zoo.cpp:158-193). body is what follows the two header numbers.
   */
  method LoadAscii(w: int, h: int, body: string) returns (r: Result<Grid>)
    ensures r.Ok? <==> LoadText(w, h, body).Ok?
    ensures r.Err? ==> LoadText(w, h, body) == Err(r.error)
    ensures r.Ok? ==> fresh(r.value) && r.value.Valid() && r.value.Value() == LoadText(w, h, body).value
  {
    if w < 1 || h < 1 {
      return Err(InvalidDimension);
    }
    var chars := LineChars(body);
    ghost var n := w * h;
    var g := new Grid(w, h);
    var y := 0;
    ghost var done: nat := 0;
    while y < h
      invariant y <= h && done == w * y && done <= n
      invariant g.Valid() && g.width == w && g.height == h
      invariant CharsParsed(g.cells, chars, done)
    {
      RowEnd(w, y, h);
      var x := 0;
      while x < w
        invariant x <= w && done == w * y + x && done + (w - x) <= n
        invariant g.Valid() && g.width == w && g.height == h
        invariant CharsParsed(g.cells, chars, done)
      {
        var k := x + w * y;
        assert k == done && g.Value().Offset(x, y) == k;
        if k >= |chars| {
          assert ParseCells(n, chars).Err?;
          return Err(FormatError);
        }
        ghost var before := g.cells;
        if chars[k] == ' ' {
          var _ := g.Set(x, y, Dead);
        } else if chars[k] == '#' {
          var _ := g.Set(x, y, Alive);
        } else {
          assert ParseChar(chars[k]).Err?;
          assert ParseCells(n, chars).Err?;
          return Err(FormatError);
        }
        CharsParsedStep(before, g.cells, chars, k);
        x, done := x + 1, done + 1;
      }
      y := y + 1;
    }
    var p := ParseCells(n, chars);
    assert p.Ok? && p.value == g.cells;
    r := Ok(g);
  }

  /** The first k cells are what the first k characters parse to. */
  ghost predicate CharsParsed(cells: seq<Cell>, chars: string, k: nat) {
    k <= |cells| && k <= |chars| && forall i :: 0 <= i < k ==> ParseChar(chars[i]) == Ok(cells[i])
  }

  lemma CharsParsedStep(before: seq<Cell>, after: seq<Cell>, chars: string, k: nat)
    requires CharsParsed(before, chars, k) && k < |before| && k < |chars| && ParseChar(chars[k]).Ok?
    requires after == before[k := ParseChar(chars[k]).value]
    ensures CharsParsed(after, chars, k + 1)
  {
  }
}
